=== FILE: README.md ===
# PromptSmith, modelled in Dafny

PromptSmith is a single-page tool. The user types a goal, picks a generation focus (text,
image or code) and a target model, and the page posts the trimmed goal to a FastAPI
endpoint. The endpoint asks Gemini for nine prompts (a text, an image and a code prompt,
each in a main version and two variations). It strips a Markdown fence from the reply,
parses the reply as JSON, and checks and normalises the nine keys. It returns them, or
an HTTP error of status 400, 401 or 500. The page shows the prompt cards that fit the
chosen focus. It also keeps a sky/deep theme and draws an animated background: clouds
for the sky theme; for the deep theme, stars of which one blinks at a time, and at
most four comets.

The project has one module per concern:

- `Text` (text.dfy): the whitespace sets of Python's `str.strip()` and JavaScript's
  `trim()`, which differ. It also has JavaScript's UTF-16 `length`, substring search,
  ASCII lower-casing and decimal rendering.
- `Backend` (backend.dfy): `generate_prompts_endpoint`.
  - Fence stripping is modelled with Python's clamped slices.
  - The key-validation loop is an imperative method over the parsed map, proved against
    a specification function.
  - Building the response model, and the mapping of exceptions to statuses.
- `Results` (results.dfy): `displayError`, `displayResults` and `updateCodePromptField`,
  as functions on a view of the nine cards and the two panels.
- `Submit` (submit.dfy): the character counter, the four ordered checks on the form,
  and the page after a click, whichever way the request ends.
- `Canvas` (canvas.dfy): the background script.
  - Its closure variables are the fields of the class `Background`.
  - Each method is proved equal to a pure step function: the blink step, the comet step,
    a frame, `setCanvasTheme`, resize.
  - Lemmas prove the invariants: at most one bright star, at most four comets.
- `ThemeToggle` (theme.dfy): the initial theme, the toggle, and class `Page`, which keeps
  the button and the background in step with the body's class.

## Model

| member | source | states |
|---|---|---|
| Text.Trim | backend/main.py:87 | the result is no longer than the input and neither starts nor ends with a space |
| Text.TrimEmpty | backend/main.py:87 | a string trims to empty exactly when every character is whitespace |
| Text.TrimIdempotent | frontend/script.js:91 | trimming a trimmed string changes nothing |
| Text.TrimClean | backend/main.py:103 | a string with no whitespace at either end is its own strip |
| Text.TrimLeadingSpace | backend/main.py:103 | a leading whitespace character does not change the stripped result |
| Text.TrimTrailingSpace | backend/main.py:103 | a trailing whitespace character does not change the stripped result |
| Text.PyStrip | backend/main.py:87 | Python's `str.strip()`: Trim over Python's whitespace set, pinned by Text.TrimEmpty, Text.TrimClean, Text.TrimLeadingSpace and Text.TrimTrailingSpace |
| Text.JsTrim | frontend/script.js:91 | JavaScript's `trim()`: Trim over ECMAScript's whitespace set, pinned by the same lemmas; Submit.SeparatorGoalReachesServer shows the two sets differ |
| Text.Utf16Length | frontend/script.js:46 | the JavaScript length lies between the number of code points and twice that |
| Text.Utf16LengthBmp | frontend/script.js:46 | with no character above U+FFFF, the JavaScript length is the number of characters |
| Text.Utf16LengthSnoc | frontend/script.js:46 | a character above U+FFFF adds two code units to the JavaScript length, any other character one |
| Text.Utf16LengthAppend | frontend/script.js:92 | the length of a concatenation is the sum of the lengths |
| Text.Utf16LengthTrim | frontend/script.js:91-92 | trimming never makes the JavaScript length larger |
| Text.Contains | backend/main.py:124 | Python's `in` on strings (also at line 146), pinned by Text.ContainsSuffix, Text.ContainsAppend and Text.NotContainsWithoutHead; Backend.CodeKeys and Backend.Classify state its use |
| Text.ContainsSuffix | backend/main.py:124 | a string contains each of its suffixes |
| Text.NotContainsWithoutHead | backend/main.py:124 | a string lacking the first character of `sub` does not contain `sub` |
| Text.LowerAscii | frontend/script.js:192 | `toLowerCase()` on ASCII letters, keeping the length; Results.Meaningful uses it, and the Text.LowerAscii line under "## Left out" says why this is exact for the sentinel |
| Text.Decimal | frontend/script.js:47 | the rendering is non-empty, all digits, denotes exactly `n`, and starts with 0 only for zero |
| Backend.PySlice | backend/main.py:103 | a slice is no longer than the string; in-range bounds give `s[start..stop]`, a negative stop counts from the end, a stop past the end is clamped to it, and a start at or past the end, or a non-negative start with a stop that resolves at or before it, gives the empty string |
| Backend.Unfence | backend/main.py:103-105 | `t[opening:-3].strip()`, which is empty when the text is too short for both fences |
| Backend.FenceOpening | backend/main.py:102-105 | a ```` ```json ```` opening is tested before the plain ```` ``` ```` opening; 0 means no fence |
| Backend.StripFence | backend/main.py:99-105 | text whose stripped form does not start with ```` ``` ```` is passed on unchanged; the result is never longer than the input |
| Backend.JsonFenceRoundTrip | backend/main.py:102-103 | a stripped payload wrapped in a ```` ```json ```` fence comes back out unchanged |
| Backend.PlainFenceRoundTrip | backend/main.py:104-105 | a stripped payload wrapped in a plain ```` ``` ```` fence comes back out unchanged |
| Backend.JsonFenceIsRemoved | backend/main.py:102-103 | a ```` ```json ```` fenced text is cut seven characters in |
| Backend.PlainFenceIsRemoved | backend/main.py:104-105 | a plain fenced text is cut three characters in |
| Backend.FenceInside | backend/main.py:103-105 | the part between the opening and the closing fence strips to the payload |
| Backend.Unwrap | backend/main.py:103 | newlines around a stripped payload are stripped away |
| Backend.CodeKeys | backend/main.py:116-125 | exactly the three `*code_prompt` keys of the nine contain "code_prompt" |
| Backend.NormalizedOn | backend/main.py:121-130 | every handled key is present and not the sentinel; a handled key that was missing or held the sentinel becomes null; other keys and non-sentinel values are unchanged |
| Backend.NormalizeSpec | backend/main.py:121-130 | what the loop yields, stated through Backend.NormalizedOn and Backend.FirstRejected; Backend.NormalizeKeys is proved equal to it |
| Backend.FieldAccepted | backend/main.py:39-48 | pydantic's check of one field: a string for the text and image fields, a string, null or absence for the code fields; Backend.Construct is built exactly when it holds of all nine |
| Backend.FirstRejected | backend/main.py:122-127 | the first key the loop rejects is missing and not a code key, and every key before it is accepted |
| Backend.NormalizedOnStep | backend/main.py:121-130 | handling one more key changes that key alone |
| Backend.NormalizeKeys | backend/main.py:121-130 | the in-place loop yields the normalised map, or the missing-key error for the first rejected key, quoting the map as it then was |
| Backend.HandledKey | backend/main.py:122-130 | one pass of the loop body turns the map for the first i keys into the map for the first i+1 |
| Backend.Construct | backend/main.py:39-48 | the response model is built exactly when every text and image field is a string and every code field is a string, null or absent; it then has all nine fields with their values |
| Backend.Serialize | backend/main.py:39-48 | the serialised object has the model's fields |
| Backend.ConstructSerialize | backend/main.py:39-48 | serialising a model and validating the JSON again gives the same model |
| Backend.AttemptSpec | backend/main.py:90-141 | a successful try block never returns the sentinel, every HTTP error it raises is a 500, and only a failing model client raises a client error |
| Backend.Validated | backend/main.py:115-133 | validated prompts have all nine fields, no sentinel and text in every text and image field; its HTTP errors are 500 |
| Backend.Classify | backend/main.py:143-148 | an error whose text contains "API key not valid" becomes 401 with the fixed detail; any other error becomes 500 with the error's text after the fixed prefix |
| Backend.ExceptionText | backend/main.py:146 | `str(e)`: an HTTPException reads "<status>: <detail>"; Backend.ParseErrorEchoes shows it keeps whatever the detail quotes |
| Backend.Respond | backend/main.py:87-148 | the endpoint's answer: 400 for a blank goal before the try block, else the prompts or the classified error; its properties are the ensures of Backend.GeneratePrompts, which is proved equal to it |
| Backend.Attempt | backend/main.py:90-141 | the try block as written computes the specified result |
| Backend.GeneratePrompts | backend/main.py:82-148 | the failure statuses are only 400, 401 and 500; 400 exactly when the goal strips to empty, with its detail, before any model call; an answer never carries the sentinel |
| Backend.SentinelTextPromptFails | backend/main.py:128-133 | a text prompt equal to the sentinel is nulled, so the response model rejects it and the endpoint answers with an error |
| Backend.ParsedReply | backend/main.py:106-133 | a reply that parses goes on to key validation |
| Backend.SentinelTextPromptRejected | backend/main.py:128-133 | key validation fails when the text prompt is the sentinel |
| Backend.EchoedPhraseReadsAsBadKey | backend/main.py:107-113 | a non-JSON reply quoting "API key not valid" is answered 401 "Invalid Gemini API Key" |
| Backend.UnparsedReply | backend/main.py:107-113 | an unfenced reply that does not parse raises the parse error quoting the reply |
| Backend.ParseErrorEchoes | backend/main.py:113 | for any string `sub`, the text of the parse error contains `sub` whenever the raw reply does |
| Backend.EchoedReplyStaysParseError | backend/main.py:107-148 | under the corrected clause, the parse error of an echoing reply is answered 500 with the parse error's text |
| Backend.ClassifyCorrected | backend/main.py:143-148 | only an error from the model client that mentions an invalid key becomes 401; the endpoint's own HTTP errors and pydantic's validation errors stay 500 with the error's text |
| Backend.CorrectedDiffersOnlyOnEchoes | backend/main.py:143-148 | the corrected clause differs from the written one exactly on errors that are not the client's and whose text contains the phrase |
| Results.DisplayError | frontend/script.js:151-155 | the error panel shows the message, the results panel is hidden, and the cards are untouched |
| Results.UpdateCodeField | frontend/script.js:190-207 | a code card is shown iff the focus is code, or there is no focus and the value is meaningful; a meaningful value is written to the card whether or not it is shown; a shown card without one holds the sentinel, a hidden one keeps its text |
| Results.Meaningful | frontend/script.js:192 | a code value is written only when it is truthy, not the sentinel in any letter case, and not blank; Results.UpdateCodeField and Results.VisibilityTable state its effect |
| Results.CardAfter | frontend/script.js:162-192 | one card after displayResults; Results.VisibilityTable, Results.TextSlotsFilled and Results.ShownCardsAreCurrent state its result |
| Results.DisplayResults | frontend/script.js:157-188 | the same cards remain and the results panel is displayed |
| Results.TextSlotsFilled | frontend/script.js:173-180 | every text and image card, shown or hidden, holds its field when that is truthy and "N/A" otherwise |
| Results.VisibilityTable | frontend/script.js:157-207 | a text or image card is shown exactly when its kind is in focus and its field is truthy; the code-card rule is as above |
| Results.ShownCardsAreCurrent | frontend/script.js:173-184 | a visible card holds this reply's content, never 'N/A' for a text or image card |
| Results.DisplayForgetsPrevious | frontend/script.js:158-160 | which cards are visible, and what a visible card shows, does not depend on the page before |
| Results.FocusExcludesOtherKinds | frontend/script.js:162-205 | with one focus selected, no card of another kind is visible |
| Submit.CounterFor | frontend/script.js:45-55 | after an input event the counter reads the untrimmed JavaScript length in decimal, then " / 500"; the error style applies exactly above 500 |
| Submit.ReadForm | frontend/script.js:91-95 | the goal is the trim of the field; the blank check fails exactly when every character of the field is JavaScript whitespace; the length check fails exactly when the untrimmed field is longer than 500; the radios are read unchanged |
| Submit.Validate | frontend/script.js:97-130 | a request carries the trimmed goal |
| Submit.FirstFailing | frontend/script.js:97-114 | the first failing check fails and every check before it passes |
| Submit.ValidateFollowsChecks | frontend/script.js:97-114 | a request is sent exactly when all four checks pass; otherwise the message and refocusing are those of the first failing check |
| Submit.FirstFailingCheckWins | frontend/script.js:97-114 | the form is rejected with a check's message exactly when that check fails and all earlier checks pass |
| Submit.MessagesDiffer | frontend/script.js:98-112 | the four messages are distinct |
| Submit.SentGoalIsWithinLimits | frontend/script.js:91-130 | a sent goal is non-empty, already trimmed, and at most 500 long |
| Submit.CounterAgreesWithCheck | frontend/script.js:48-102 | after an input event the counter shows an error exactly when the length check rejects |
| Submit.LoadCounter | frontend/script.js:56 | the counter drawn at load has the input handler's text and never the error style |
| Submit.PrefilledLongValueLooksFine | frontend/script.js:44-102 | a value over 500 already in the field at load is shown without the error style, though the input handler would style it and the length check rejects it |
| Submit.SeparatorGoalReachesServer | frontend/script.js:91-97 | a goal of U+001C passes the page, which uses JavaScript's trim, but the server's strip() rejects it with 400 |
| Submit.RefusalMessage | frontend/script.js:133-135 | the error thrown for a non-2xx reply carries the server's detail when it is a non-empty string; a body that is not JSON gives "Server Error: <status>", a JSON body without a detail "Server Error: <status> - <status text>" |
| Submit.FallbacksDiffer | frontend/script.js:133-135 | the two fallback messages always differ |
| Submit.ClickShowsOnePanel | frontend/script.js:90-155 | after a click exactly one of the error and results panels is displayed |
| Submit.RejectedFormSendsNothing | frontend/script.js:97-114 | a rejected form sends no request, leaves the cards as they were, and shows a failing check's message |
| Submit.ServerDetailIsShown | frontend/script.js:133-143 | a server error with a detail is shown with that detail |
| Submit.Click | frontend/script.js:90-155 | the page after a click on Generate; its properties are Submit.ClickShowsOnePanel, Submit.RejectedFormSendsNothing and Submit.ServerDetailIsShown |
| Canvas.DimAll | frontend/script.js:392-394 | every star is at its dim level |
| Canvas.PickIndex | frontend/script.js:395-396 | `Math.floor(canvasRandom(0, n))` is a valid star index |
| Canvas.ThemeFor | frontend/script.js:438 | only 'theme-deep' selects the night scene; Canvas.SetThemeKeepsInv states it of setCanvasTheme |
| Canvas.SkyInv | frontend/script.js:373-401 | at most one star is bright: the index is -1 or a star, and every other star is dim |
| Canvas.BlinkStep | frontend/script.js:373-401 | updateStarBlinkingLogic; its properties are Canvas.BlinkStepKeepsInv, Canvas.BlinkEnds, Canvas.BlinkGoesOn, Canvas.BlinkStartsAfterPause and Canvas.PauseChangesNothing |
| Canvas.BlinkStepKeepsInv | frontend/script.js:373-401 | the blink step keeps the index at -1 or on a star, with every other star dim |
| Canvas.OneBrightStar | frontend/script.js:373-401 | under that invariant, no two stars are bright at once |
| Canvas.BlinkEnds | frontend/script.js:379-388 | once BLINK_DURATION has elapsed the blink ends: all stars dim, index -1, and the pause starts now |
| Canvas.BlinkGoesOn | frontend/script.js:379-383 | before that, the same star goes on blinking from the same start |
| Canvas.BlinkStartsAfterPause | frontend/script.js:390-398 | a new blink starts only after more than INTER_BLINK_DELAY, from all stars dim, at the current time |
| Canvas.PauseChangesNothing | frontend/script.js:374-391 | with no stars, or during a short pause, nothing changes |
| Canvas.Survivors | frontend/script.js:422-424 | the filter keeps exactly the moved comets that are not off screen |
| Canvas.Spawned | frontend/script.js:418-421 | the spawn rule, stated by Canvas.SpawnRule |
| Canvas.CometStep | frontend/script.js:418-424 | the comet part of a night frame; its properties are Canvas.CometStepBounds, Canvas.SpawnRule and Canvas.CometsLeaveOnlyOffscreen |
| Canvas.CometStepBounds | frontend/script.js:418-424 | a frame adds at most one comet, only when the interval has passed and there is room; the pool never exceeds four |
| Canvas.SpawnRule | frontend/script.js:418-421 | a comet spawns exactly when more than 2500 ms have passed and fewer than four exist; it joins at the end and the spawn time moves to now |
| Canvas.CometsLeaveOnlyOffscreen | frontend/script.js:422-424 | a comet stays exactly while it is on screen |
| Canvas.Initial | frontend/script.js:290-297 | the starting scene satisfies the invariants |
| Canvas.InitLight | frontend/script.js:267-272 | initLightModeCanvas: fifteen clouds; Canvas.FirstSkyLoadHasNoClouds uses it after a resize |
| Canvas.InitDark | frontend/script.js:359-371 | initDarkModeCanvas; Canvas.InitDarkKeepsInv and Canvas.NightStartsQuiet state its result |
| Canvas.InitDarkKeepsInv | frontend/script.js:359-371 | the dark initialisation leaves 150 stars, no blink, and the invariants |
| Canvas.Frame | frontend/script.js:427-435 | one animation frame; Canvas.FrameKeepsInv states that it keeps the invariants and the loop running |
| Canvas.FrameKeepsInv | frontend/script.js:403-433 | a frame keeps the invariants and leaves the loop running |
| Canvas.SetTheme | frontend/script.js:437-454 | setCanvasTheme; its properties are Canvas.SetThemeKeepsInv, Canvas.SameThemeChangesNothing, Canvas.NightStartsQuiet and Canvas.FirstSkyLoadHasNoClouds |
| Canvas.SetThemeKeepsInv | frontend/script.js:437-454 | setCanvasTheme keeps the invariants and selects dark exactly for 'theme-deep' |
| Canvas.Resize | frontend/script.js:458-462 | the resize handler; Canvas.ResizeKeepsInv states that it keeps the invariants |
| Canvas.ResizeKeepsInv | frontend/script.js:458-462 | the resize handler keeps the invariants |
| Canvas.SameThemeChangesNothing | frontend/script.js:437-448 | asking for the scene already shown, once the loop runs, changes nothing |
| Canvas.NightStartsQuiet | frontend/script.js:437-454 | switching to deep leaves 150 dim stars, no blink and no comet, even with an immediate first frame |
| Canvas.FirstSkyLoadHasNoClouds | frontend/script.js:437-462 | the sky scene has no clouds on first load, because the theme does not change; a resize brings the fifteen clouds |
| Canvas.SetThemeCorrected | frontend/script.js:437-454 | the corrected setCanvasTheme builds the selected scene when no frame has been requested yet, and otherwise is setCanvasTheme as written |
| Canvas.SetThemeCorrectedKeepsInv | frontend/script.js:437-454 | the corrected setCanvasTheme keeps the invariants and selects dark exactly for 'theme-deep' |
| Canvas.FirstSkyLoadHasCloudsCorrected | frontend/script.js:437-462 | with the correction the sky scene has its fifteen clouds from the first load |
| Canvas.Background.constructor | frontend/script.js:290-297 | the closure variables as declared |
| Canvas.Background.InitLightModeCanvas | frontend/script.js:267-272 | the scene after initLightModeCanvas |
| Canvas.Background.DimStars | frontend/script.js:392-394 | every star dimmed, nothing else changed |
| Canvas.Background.InitDarkModeCanvas | frontend/script.js:359-371 | the scene after initDarkModeCanvas |
| Canvas.Background.UpdateStarBlinkingLogic | frontend/script.js:373-401 | the state after the blink step |
| Canvas.Background.UpdateComets | frontend/script.js:418-424 | the state after the comet step |
| Canvas.Background.AnimationFrame | frontend/script.js:427-435 | the state after one frame, with the invariants kept |
| Canvas.Background.SetCanvasTheme | frontend/script.js:437-454 | the state after setCanvasTheme, with the invariants kept |
| Canvas.Background.OnResize | frontend/script.js:458-462 | the state after a resize, with the invariants kept |
| ThemeToggle.SkyHasSkyClass | frontend/script.js:486 | a body of class 'theme-sky' carries the sky class |
| ThemeToggle.DeepLacksSkyClass | frontend/script.js:486 | a body of class 'theme-deep' does not carry the sky class |
| ThemeToggle.HasClass | frontend/script.js:486 | `classList.contains`: the token occurs between ASCII whitespace or the ends; Sky and Deep are told apart by ThemeToggle.SkyHasSkyClass and ThemeToggle.DeepLacksSkyClass |
| ThemeToggle.NextTheme | frontend/script.js:486-493 | the toggle's choice; its properties are ThemeToggle.ToggleTwice and ThemeToggle.ToggleAlternates |
| ThemeToggle.InitialTheme | frontend/script.js:469-472 | a non-empty stored theme wins; otherwise deep exactly when the system prefers dark, else sky |
| ThemeToggle.ToggleTwice | frontend/script.js:484-500 | two toggles from sky or deep return to the start |
| ThemeToggle.ToggleAlternates | frontend/script.js:486-492 | a toggle always leaves sky or deep, and changes either into the other |
| ThemeToggle.Load | frontend/script.js:468-475 | the loaded page shows the initial theme, with an icon and label matching it, and storage is only read |
| ThemeToggle.Toggle | frontend/script.js:484-496 | a toggle shows the next theme, with an icon and label matching it, and persists it |
| ThemeToggle.ToggledThemeSurvivesReload | frontend/script.js:469-493 | a toggled theme is the theme after a reload, whatever the system preference |
| ThemeToggle.Page.constructor | frontend/script.js:468-482 | the page as loaded, with the background set to the initial theme |
| ThemeToggle.Page.ToggleTheme | frontend/script.js:484-500 | the page after a toggle; the background follows the new theme, and the button and scene stay in step |

## Left out

- The Gemini client, the prompt template and its `{{user_input}}` substitution
  (backend/main.py:56-80, 92-95) are left out. The client's outcome is an input: an
  exception message, an empty reply with an optional block reason, or the first part's
  text.
- `json.loads` is an input function from the cleaned text to a decode error or an
  object. JSON values are reduced to null, string or other.
- Backend.AttemptSpec: valid JSON that is not an object is not modelled. In the source
  it reaches the key loop (backend/main.py:121-130): a JSON string is searched as a
  substring and then indexed, a list is searched by membership, and a number raises a
  TypeError. Each way ends in a 500, or a 401 when the error's text holds the phrase.
- Backend.FieldAccepted follows pydantic 2, which refuses a number in a `str` field;
  pydantic 1 would coerce it.
- Python's `repr` of a dict (quoted in the missing-key detail) and pydantic's validation
  error text are inputs. So is the block reason text (Python's `or` between the message
  and the reason is folded into one optional string).
- Backend.Attempt and Backend.GeneratePrompts: `str()` of an HTTPException is modelled as
  "<status>: <detail>", which is Starlette's rendering. The `print` calls are left out.
- FastAPI, CORS, `.env` loading and the API-key startup check (backend/main.py:1-33) are
  left out.
- `fetch`, `response.json()` and the loading indicator are left out. A reply is an
  input: the parsed data, a refusal with status, status text and body, or a network error.
- Submit.ErrorBody: a non-string `detail` (FastAPI's list of validation errors) is not
  modelled.
- Results.DisplayResults: the data is a map from key to string or null. A reply of
  JSON `null` makes the source throw at the first `data.` read (frontend/script.js:163,
  168 or 173, by focus); that path is not
  modelled. A string, number, boolean or array reply reads every field as undefined, so
  it behaves as the empty map.
- Results.View: the source writes the text and image prompt elements
  (frontend/script.js:173-180) without a null check, so a page lacking one throws.
  The model has every prompt element present.
- Lookups of DOM elements, styling, `scrollIntoView`, focus movement beyond the refocus
  flag, and `console` output are left out.
- Submit.CounterFor: models the input handler only (frontend/script.js:45-55). The render
  at page load (line 56) sets the text alone; Submit.LoadCounter models it, and
  Submit.PrefilledLongValueLooksFine states that a restored value over 500 has no error
  style until the first input event.
- The clipboard handlers and their timers (frontend/script.js:59-87) are left out.
- The copyright year is left out.
- Canvas drawing is left out: gradients, cloud and comet geometry, cloud drift and wrap,
  and colour-string rewriting. A cloud is only counted.
- A comet's motion is a move counter. `isOffscreen` is an input predicate.
- Canvas.BlinkStep: the sine-shaped opacity of a blinking star is reduced to the level
  Blinking.
- `Math.random` is an input in [0, 1). `performance.now()` and the frame timestamps are
  real inputs. Every `performance.now()` call inside one `setCanvasTheme` is taken to
  return the same time `now`. On the dark path these are the two in `initDarkModeCanvas`
  (frontend/script.js:368, 370) and the one for the first frame (line 451). Canvas.Resize
  likewise takes the two calls of `initDarkModeCanvas` (line 461) to return one time.
- Canvas.Survivors: the contract states which comets stay and that each is moved once,
  not that `filter` keeps their order, nor how many times each appears.
- `requestAnimationFrame` is reduced to the `running` flag. Only the first frame drawn
  by `setCanvasTheme` is modelled; later frames are calls of `AnimationFrame`.
- `localStorage` and `matchMedia` are inputs. A missing `matchMedia` is a false dark
  preference.
- Text.LowerAscii: `toLowerCase()` is modelled on ASCII letters only. For the sentinel
  comparison this is exact. Some non-ASCII characters do lower to ASCII letters (U+0130
  lowers to "i" followed by U+0307, and U+212A to "k"). Those also yield a non-ASCII
  character, or are the Kelvin sign whose letter "k" is not in the sentinel, so no
  non-ASCII text lowers to the lower-cased sentinel.

## Findings

| source | as written | input that shows it | evidently intended | confidence | as-written member | corrected member |
|---|---|---|---|---|---|---|
| backend/main.py:107-148 | every exception whose text contains "API key not valid" becomes 401 "Invalid Gemini API Key", including the endpoint's own parse error, which quotes the raw reply, and pydantic's validation error, which quotes the refused value | a non-blank goal and a model reply without a fence that is not JSON and contains "API key not valid" (a model echoing the phrase) | only an error raised by the model client about the key is reported as 401; the endpoint's own errors stay 500 | not executed | Backend.EchoedPhraseReadsAsBadKey | Backend.ClassifyCorrected |
| frontend/script.js:437-462 | setCanvasTheme initialises a scene only when the internal theme changes, and the script starts with the internal theme 'light' | loading the page with the sky theme (stored, or no dark preference): setCanvasTheme('theme-sky') sees no change, so the sky is drawn without clouds until the window is resized | the first call builds the scene it selects, so the sky has its fifteen clouds from the start | not executed | Canvas.FirstSkyLoadHasNoClouds | Canvas.SetThemeCorrected |

The endpoint model (`Backend.GeneratePrompts`) keeps the except clause as written, so it
follows the code. `Backend.ClassifyCorrected` states the intended mapping beside it.
Likewise `Canvas.Background` and `ThemeToggle.Page` follow `setCanvasTheme` as written;
`Canvas.SetThemeCorrected` and `Canvas.FirstSkyLoadHasCloudsCorrected` state the
intended behaviour beside it.

=== FILE: backend.dfy ===
/** The prompt-generation endpoint of the backend (backend/main.py,
    generate_prompts_endpoint): the blank-goal check, removal of a Markdown
    code fence around the model's reply, validation and normalisation of the
    parsed key/value map, and the mapping of every failure to an HTTP status.
    The generative-model call, json.loads, Python's dict repr and the text of
    pydantic's validation error are inputs of the model. */
module Backend {
  import opened Text

  const Sentinel := "Not applicable for code generation."
  const KeyPhrase := "API key not valid"
  const EmptyGoalDetail := "User goal cannot be empty."
  const InvalidKeyDetail := "Invalid Gemini API Key. Please check your configuration."
  const UnexpectedPrefix := "An unexpected error occurred: "
  const EmptyReplyDetail := "Failed to generate prompts. The response from the generative model was empty or did not contain text."

  /** The nine keys the reply must carry, in the order the loop visits them. */
  const ExpectedKeys: seq<string> := [
    "text_prompt", "image_prompt", "code_prompt",
    "variation1_text_prompt", "variation1_image_prompt", "variation1_code_prompt",
    "variation2_text_prompt", "variation2_image_prompt", "variation2_code_prompt"
  ]

  /** A parsed JSON value as far as the endpoint distinguishes it:
      null, a string, or anything else (number, boolean, array, object). */
  datatype Json = JNull | JString(s: string) | JOther

  /** What the generative-model client produced. */
  datatype ModelReply =
    | ClientError(message: string)        // generate_content, or reading the reply, raised
    | NoParts(blockReason: Option<string>) // empty reply; the block reason text when one is set
    | Parts(text: string)                 // the text of the first part

  /** What json.loads made of the cleaned text (a top-level object, or a decode error). */
  datatype Parsed = DecodeError | Decoded(obj: map<string, Json>)

  /** An exception raised inside the endpoint's try block: an HTTPException of the
      endpoint's own, an error of the model client, or pydantic's ValidationError. */
  datatype Exception =
    | HttpError(status: nat, detail: string)
    | ClientFailed(message: string)
    | Invalid(text: string)

  /** The OptimizedPrompts response model, field by field under its JSON key:
      Some(text) for a string, None for a null code prompt. */
  datatype Prompts = Prompts(fields: map<string, Option<string>>)

  /** What the client receives: the prompts, or an HTTP error status with its detail. */
  datatype Response = Answer(prompts: Prompts) | Failure(status: nat, detail: string)

  /** str(e): Starlette renders an HTTPException as "<status>: <detail>". */
  function ExceptionText(e: Exception): string {
    match e
    case HttpError(status, detail) => Decimal(status) + ": " + detail
    case ClientFailed(message) => message
    case Invalid(text) => text
  }

  // ---------------------------------------------------------------------------
  // Fence stripping

  /** A Python slice bound resolved against a length: negative counts from the end, then clamped. */
  function SliceBound(i: int, len: nat): (k: nat)
    ensures k <= len
  {
    if i < 0 then (if len + i < 0 then 0 else len + i) else if i > len then len else i
  }

  /** s[start:stop] with Python's semantics: out-of-range bounds are clamped, never an error. */
  function PySlice(s: string, start: int, stop: int): (r: string)
    ensures |r| <= |s|
    ensures 0 <= start <= stop <= |s| ==> r == s[start..stop]
    ensures 0 <= start <= |s| + stop && stop < 0 ==> r == s[start..|s| + stop]
    ensures 0 <= start <= |s| < stop ==> r == s[start..]
    ensures start >= |s| || stop <= -|s| ==> r == []
    ensures 0 <= start && stop < 0 && |s| + stop <= start ==> r == []
    ensures 0 <= stop <= start ==> r == []
  {
    var lo, hi := SliceBound(start, |s|), SliceBound(stop, |s|);
    if lo < hi then s[lo..hi] else ""
  }

  /** The inside of a fence whose opening is `opening` characters long: t[opening:-3].strip(),
      which is empty when the stripped text is too short to hold both fences. */
  function Unfence(t: string, opening: nat): (r: string)
    ensures |r| <= |t|
    ensures r == if |t| > opening + 3 then PyStrip(t[opening..|t| - 3]) else ""
  {
    var inner := PySlice(t, opening, -3);
    if |t| > opening + 3 then
      assert inner == t[opening..|t| - 3];
      PyStrip(inner)
    else
      assert inner == "";
      PyStrip(inner)
  }

  /** How many characters of the stripped reply open its fence: 7 for ```json, 3 for ```, 0 for none. */
  function FenceOpening(t: string): (n: nat)
    ensures n == 7 <==> "```json" <= t
    ensures n == 3 <==> !("```json" <= t) && "```" <= t
    ensures n == 0 <==> !("```" <= t)
  {
    if "```json" <= t then 7 else if "```" <= t then 3 else 0
  }

  /** Removes a ```json ... ``` or ``` ... ``` fence around the reply text; the
      ```json test comes first, and text without a fence is passed on unchanged. */
  function StripFence(text: string): (r: string)
    ensures |r| <= |text|
    ensures !("```" <= PyStrip(text)) ==> r == text
  {
    var t := PyStrip(text);
    var n := FenceOpening(t);
    if n == 0 then text else Unfence(t, n)
  }

  /** Stripping a ```json fence written around an already-stripped payload gives the payload back. */
  lemma JsonFenceRoundTrip(p: string)
    requires Clean(p, IsPySpace)
    ensures StripFence("```json\n" + p + "\n```") == p
  {
    JsonFenceIsRemoved(p);
    FenceInside("```json\n", p);
  }

  /** Stripping a plain ``` fence written around an already-stripped payload gives the payload back. */
  lemma PlainFenceRoundTrip(p: string)
    requires Clean(p, IsPySpace)
    ensures StripFence("```\n" + p + "\n```") == p
  {
    PlainFenceIsRemoved(p);
    FenceInside("```\n", p);
  }

  lemma JsonFenceIsRemoved(p: string)
    ensures var w := "```json\n" + p + "\n```"; StripFence(w) == Unfence(w, 7)
  {
    FenceIsClean("```json\n", p);
    JsonFenceOpening(p);
  }

  lemma PlainFenceIsRemoved(p: string)
    ensures var v := "```\n" + p + "\n```"; StripFence(v) == Unfence(v, 3)
  {
    FenceIsClean("```\n", p);
    PlainFenceOpening(p);
  }

  lemma JsonFenceOpening(p: string)
    ensures FenceOpening("```json\n" + p + "\n```") == 7
  {
    var w := "```json\n" + p + "\n```";
    assert w[..7] == "```json";
  }

  lemma PlainFenceOpening(p: string)
    ensures FenceOpening("```\n" + p + "\n```") == 3
  {
    var v := "```\n" + p + "\n```";
    assert v[..3] == "```";
    assert v[3] == '\n';
  }

  /** A fenced text starts and ends with a backtick, so strip() leaves it alone. */
  lemma FenceIsClean(opening: string, p: string)
    requires opening != [] && opening[0] == '`'
    ensures PyStrip(opening + p + "\n```") == opening + p + "\n```"
  {
    var w := opening + p + "\n```";
    assert w[0] == '`' && w[|w| - 1] == '`';
    TrimClean(w, IsPySpace);
  }

  /** Between an opening ending in a newline and the closing fence lies the payload
      wrapped in newlines, which strips back to the payload. */
  lemma FenceInside(opening: string, p: string)
    requires Clean(p, IsPySpace)
    requires opening != [] && opening[|opening| - 1] == '\n'
    ensures Unfence(opening + p + "\n```", |opening| - 1) == p
  {
    var w := opening + p + "\n```";
    assert w[|opening| - 1..|w| - 3] == ['\n'] + p + ['\n'];
    Unwrap(p);
  }

  /** Newlines around an already-stripped payload are stripped away. */
  lemma Unwrap(p: string)
    requires Clean(p, IsPySpace)
    ensures PyStrip(['\n'] + p + ['\n']) == p
  {
    NewlineBehind(['\n'] + p);
    NewlineInFront(p);
    TrimClean(p, IsPySpace);
  }

  lemma NewlineInFront(s: string)
    ensures PyStrip(['\n'] + s) == PyStrip(s)
  {
    assert IsPySpace('\n');
    TrimLeadingSpace('\n', s, IsPySpace);
  }

  lemma NewlineBehind(s: string)
    ensures PyStrip(s + ['\n']) == PyStrip(s)
  {
    assert IsPySpace('\n');
    TrimTrailingSpace(s, '\n', IsPySpace);
  }

  // ---------------------------------------------------------------------------
  // Key validation and normalisation

  /** Python's `"code_prompt" in key`. */
  predicate IsCodeKey(key: string) {
    Contains(key, "code_prompt")
  }

  /** Exactly the three *code_prompt keys are code keys; a missing one of them is tolerated. */
  lemma CodeKeys()
    ensures forall i :: 0 <= i < |ExpectedKeys| ==> (IsCodeKey(ExpectedKeys[i]) <==> i % 3 == 2)
  {
    forall i | 0 <= i < |ExpectedKeys|
      ensures IsCodeKey(ExpectedKeys[i]) <==> i % 3 == 2
    {
      if i % 3 == 2 {
        CodeKeyShape(i);
        ContainsSuffix(ExpectedKeys[i][..|ExpectedKeys[i]| - 11], "code_prompt");
      } else {
        NoCodeChar(i);
        NotContainsWithoutHead(ExpectedKeys[i], "code_prompt");
      }
    }
  }

  lemma CodeKeyShape(i: nat)
    requires i < |ExpectedKeys| && i % 3 == 2
    ensures |ExpectedKeys[i]| >= 11
    ensures ExpectedKeys[i] == ExpectedKeys[i][..|ExpectedKeys[i]| - 11] + "code_prompt"
  {
    var key := ExpectedKeys[i];
    if i == 2 {
      assert key == "code_prompt";
    } else if i == 5 {
      assert key == "variation1_code_prompt";
      assert key[..11] == "variation1_";
    } else {
      assert key == "variation2_code_prompt";
      assert key[..11] == "variation2_";
    }
  }

  lemma NoCodeChar(i: nat)
    requires i < |ExpectedKeys| && i % 3 != 2
    ensures 'c' !in ExpectedKeys[i]
  {
    var key := ExpectedKeys[i];
    if i < 3 {
      assert key == "text_prompt" || key == "image_prompt";
    } else if i < 6 {
      assert key == "variation1_text_prompt" || key == "variation1_image_prompt";
    } else {
      assert key == "variation2_text_prompt" || key == "variation2_image_prompt";
    }
  }

  /** prompts_data.get(key, default). */
  function Get(d: map<string, Json>, key: string, default: Json): Json {
    if key in d then d[key] else default
  }

  /** `data` after the loop has handled the keys in `keys`: each of them present,
      null where it was missing or held the sentinel, everything else as it was. */
  function NormalizedOn(data: map<string, Json>, keys: seq<string>): (r: map<string, Json>)
    ensures r.Keys == data.Keys + (set k | k in keys)
    ensures forall k :: k in keys ==> r[k] != JString(Sentinel)
    ensures forall k :: k in keys && k in data && data[k] == JString(Sentinel) ==> r[k] == JNull
    ensures forall k :: k in keys && k !in data ==> r[k] == JNull
    ensures forall k :: k in data && k !in keys ==> r[k] == data[k]
    ensures forall k :: k in data && data[k] != JString(Sentinel) ==> r[k] == data[k]
  {
    map k | k in data.Keys + (set k | k in keys) ::
      if k in keys && (k !in data || data[k] == JString(Sentinel)) then JNull else data[k]
  }

  /** The index of the first key of `keys`, at or after `from`, that the loop rejects
      (missing and not a code key); |keys| when there is none. */
  function FirstRejected(data: map<string, Json>, keys: seq<string>, from: nat): (i: nat)
    requires from <= |keys|
    ensures from <= i <= |keys|
    ensures forall j :: from <= j < i ==> keys[j] in data || IsCodeKey(keys[j])
    ensures i < |keys| ==> keys[i] !in data && !IsCodeKey(keys[i])
    decreases |keys| - from
  {
    if from == |keys| then from
    else if keys[from] !in data && !IsCodeKey(keys[from]) then from
    else FirstRejected(data, keys, from + 1)
  }

  function MissingKeyDetail(key: string, response: string): string {
    "Gemini response missing expected key: " + key + ". Response: " + response
  }

  /** What the validation loop over `keys` yields: the normalised map, or the missing-key
      error for the first rejected key, whose detail quotes the map as it was at that point. */
  function NormalizeSpec(data: map<string, Json>, keys: seq<string>, repr: map<string, Json> -> string)
    : Result<map<string, Json>, Exception>
  {
    var i := FirstRejected(data, keys, 0);
    if i == |keys| then Ok(NormalizedOn(data, keys))
    else Err(HttpError(500, MissingKeyDetail(keys[i], repr(NormalizedOn(data, keys[..i])))))
  }

  /** Handling one more key updates that key alone. */
  lemma NormalizedOnStep(data: map<string, Json>, keys: seq<string>, key: string)
    ensures NormalizedOn(data, keys + [key])
         == if key in keys then NormalizedOn(data, keys)
            else NormalizedOn(data, keys)[key := if key !in data || data[key] == JString(Sentinel) then JNull else data[key]]
  {
  }

  /** The loop over the expected keys, updating the parsed map in place. */
  method NormalizeKeys(data: map<string, Json>, keys: seq<string>, repr: map<string, Json> -> string)
    returns (r: Result<map<string, Json>, Exception>)
    ensures r == NormalizeSpec(data, keys, repr)
  {
    var d := data;
    for i := 0 to |keys|
      invariant d == NormalizedOn(data, keys[..i])
      invariant forall j :: 0 <= j < i ==> keys[j] in data || IsCodeKey(keys[j])
    {
      var key := keys[i];
      if key !in d {
        if IsCodeKey(key) && Get(d, key, JString(Sentinel)) == JString(Sentinel) {
          d := d[key := JNull];
        } else {
          RejectedAt(data, keys, i);
          r := Err(HttpError(500, MissingKeyDetail(key, repr(d))));
          return;
        }
      }
      if d[key] == JString(Sentinel) {
        d := d[key := JNull];
      }
      HandledKey(data, keys, i);
    }
    assert keys[..|keys|] == keys;
    NoneRejected(data, keys);
    r := Ok(d);
  }

  /** One pass of the loop body turns the map for keys[..i] into the map for keys[..i+1]. */
  lemma HandledKey(data: map<string, Json>, keys: seq<string>, i: nat)
    requires i < |keys|
    requires keys[i] in data || IsCodeKey(keys[i])
    ensures var d := NormalizedOn(data, keys[..i]); var key := keys[i];
      var d1 := if key !in d then d[key := JNull] else d;
      NormalizedOn(data, keys[..i + 1]) == if d1[key] == JString(Sentinel) then d1[key := JNull] else d1
  {
    assert keys[..i + 1] == keys[..i] + [keys[i]];
    NormalizedOnStep(data, keys[..i], keys[i]);
  }

  lemma RejectedAt(data: map<string, Json>, keys: seq<string>, i: nat)
    requires i < |keys| && keys[i] !in data && !IsCodeKey(keys[i])
    requires forall j :: 0 <= j < i ==> keys[j] in data || IsCodeKey(keys[j])
    ensures FirstRejected(data, keys, 0) == i
  {
  }

  lemma NoneRejected(data: map<string, Json>, keys: seq<string>)
    requires forall j :: 0 <= j < |keys| ==> keys[j] in data || IsCodeKey(keys[j])
    ensures FirstRejected(data, keys, 0) == |keys|
  {
  }

  // ---------------------------------------------------------------------------
  // Building the response model

  /** Whether pydantic accepts the value under `key`: the text and image fields must be
      strings; the `str | None = None` code fields may also be null or absent. This is
      pydantic 2's strict treatment of `str`: a number is refused, not coerced. */
  predicate FieldAccepted(d: map<string, Json>, key: string) {
    if IsCodeKey(key) then key !in d || d[key].JNull? || d[key].JString?
    else key in d && d[key].JString?
  }

  /** The field value pydantic stores for an accepted entry. */
  function FieldValue(d: map<string, Json>, key: string): Option<string> {
    if key in d && d[key].JString? then Some(d[key].s) else None
  }

  /** A response model as pydantic can build it: every expected field, and a string in
      each text and image field. */
  predicate WellFormed(p: Prompts) {
    && p.fields.Keys == (set k | k in ExpectedKeys)
    && forall k :: k in p.fields && !IsCodeKey(k) ==> p.fields[k].Some?
  }

  /** OptimizedPrompts(**d): None stands for a ValidationError; keys other than the
      expected ones are ignored. */
  function Construct(d: map<string, Json>): (r: Option<Prompts>)
    ensures r.Some? <==> forall k :: k in ExpectedKeys ==> FieldAccepted(d, k)
    ensures r.Some? ==> WellFormed(r.value)
    ensures r.Some? ==> forall k :: k in ExpectedKeys ==> JsonOf(r.value.fields[k]) == Get(d, k, JNull)
  {
    if forall k :: k in ExpectedKeys ==> FieldAccepted(d, k)
    then Some(Prompts(map k | k in ExpectedKeys :: FieldValue(d, k)))
    else None
  }

  function JsonOf(o: Option<string>): Json {
    if o.Some? then JString(o.value) else JNull
  }

  /** The JSON object the response model serialises to. */
  function Serialize(p: Prompts): (m: map<string, Json>)
    ensures m.Keys == p.fields.Keys
  {
    map k | k in p.fields :: JsonOf(p.fields[k])
  }

  /** Serialising a response model and validating the JSON again gives the same model. */
  lemma ConstructSerialize(p: Prompts)
    requires WellFormed(p)
    ensures Construct(Serialize(p)) == Some(p)
  {
    var m := Serialize(p);
    assert forall k :: k in ExpectedKeys ==> FieldAccepted(m, k);
    assert Construct(m).value.fields == p.fields;
  }

  /** No field of the prompts carries the sentinel string. */
  predicate NoSentinel(p: Prompts) {
    forall k :: k in p.fields ==> p.fields[k] != Some(Sentinel)
  }

  // ---------------------------------------------------------------------------
  // The endpoint

  function ParseErrorDetail(cleaned: string): string {
    "Error parsing Gemini response as JSON. Raw response: " + cleaned
  }

  function NoPartsDetail(blockReason: Option<string>): string {
    if blockReason.Some? then EmptyReplyDetail + " Reason: " + blockReason.value else EmptyReplyDetail
  }

  /** What the try block produces: the prompts, or the exception it raises. */
  function AttemptSpec(reply: ModelReply, parse: string -> Parsed, repr: map<string, Json> -> string,
                       validationText: string): (r: Result<Prompts, Exception>)
    ensures r.Ok? ==> NoSentinel(r.value)
    ensures r.Err? && r.error.HttpError? ==> r.error.status == 500
    ensures r.Err? && r.error.ClientFailed? ==> reply.ClientError?
  {
    match reply
    case ClientError(message) => Err(ClientFailed(message))
    case NoParts(reason) => Err(HttpError(500, NoPartsDetail(reason)))
    case Parts(text) =>
      var cleaned := StripFence(text);
      match parse(cleaned)
      case DecodeError => Err(HttpError(500, ParseErrorDetail(cleaned)))
      case Decoded(obj) => Validated(obj, repr, validationText)
  }

  /** The parsed object checked against the expected keys, normalised, and built into
      the response model; pydantic's rejection raises an error with `validationText`. */
  function Validated(obj: map<string, Json>, repr: map<string, Json> -> string, validationText: string)
    : (r: Result<Prompts, Exception>)
    ensures r.Ok? ==> NoSentinel(r.value) && WellFormed(r.value)
    ensures r.Err? && r.error.HttpError? ==> r.error.status == 500
    ensures r.Err? ==> !r.error.ClientFailed?
  {
    match NormalizeSpec(obj, ExpectedKeys, repr)
    case Err(e) => Err(e)
    case Ok(d) =>
      var built := Construct(d);
      if built.Some? then Ok(built.value) else Err(Invalid(validationText))
  }

  /** The except clause: an error whose text mentions an invalid API key becomes 401,
      every other error 500 with the error's text appended to a fixed prefix. */
  function Classify(e: Exception): (resp: Response)
    ensures resp.Failure? && (resp.status == 401 || resp.status == 500)
    ensures resp.status == 401 <==> Contains(ExceptionText(e), KeyPhrase)
    ensures resp.status == 401 ==> resp.detail == InvalidKeyDetail
    ensures resp.status == 500 ==> resp.detail == UnexpectedPrefix + ExceptionText(e)
  {
    if Contains(ExceptionText(e), KeyPhrase) then Failure(401, InvalidKeyDetail)
    else Failure(500, UnexpectedPrefix + ExceptionText(e))
  }

  /** The endpoint's response for a goal, given what its try block produced. */
  function Respond(goal: string, attempt: Result<Prompts, Exception>): Response {
    if PyStrip(goal) == [] then Failure(400, EmptyGoalDetail)
    else match attempt
      case Ok(p) => Answer(p)
      case Err(e) => Classify(e)
  }

  /** The try block: clean the reply, parse it, validate the keys, build the response model. */
  method Attempt(reply: ModelReply, parse: string -> Parsed, repr: map<string, Json> -> string,
                 validationText: string) returns (r: Result<Prompts, Exception>)
    ensures r == AttemptSpec(reply, parse, repr, validationText)
  {
    match reply {
      case ClientError(message) =>
        r := Err(ClientFailed(message));
      case NoParts(reason) =>
        r := Err(HttpError(500, NoPartsDetail(reason)));
      case Parts(text) =>
        var cleaned := StripFence(text);
        match parse(cleaned) {
          case DecodeError =>
            r := Err(HttpError(500, ParseErrorDetail(cleaned)));
          case Decoded(obj) =>
            var normalized := NormalizeKeys(obj, ExpectedKeys, repr);
            assert normalized == NormalizeSpec(obj, ExpectedKeys, repr);
            match normalized {
              case Err(e) =>
                r := Err(e);
              case Ok(d) =>
                var built := Construct(d);
                if built.Some? {
                  r := Ok(built.value);
                } else {
                  r := Err(Invalid(validationText));
                }
            }
        }
    }
  }

  /** POST /generate-prompts/. */
  method GeneratePrompts(goal: string, reply: ModelReply, parse: string -> Parsed,
                         repr: map<string, Json> -> string, validationText: string)
    returns (resp: Response)
    ensures resp == Respond(goal, AttemptSpec(reply, parse, repr, validationText))
    ensures resp.Failure? ==> resp.status in {400, 401, 500}
    ensures (resp.Failure? && resp.status == 400) <==> PyStrip(goal) == []
    ensures resp.Failure? && resp.status == 400 ==> resp.detail == EmptyGoalDetail
    ensures resp.Failure? && resp.status == 401 ==> resp.detail == InvalidKeyDetail
    ensures resp.Failure? && resp.status == 500 ==> UnexpectedPrefix <= resp.detail
    ensures resp.Answer? ==> NoSentinel(resp.prompts)
  {
    if PyStrip(goal) == [] {
      return Failure(400, EmptyGoalDetail);
    }
    var attempt := Attempt(reply, parse, repr, validationText);
    match attempt {
      case Ok(p) => resp := Answer(p);
      case Err(e) => resp := Classify(e);
    }
  }

  /** A text or image prompt equal to the sentinel is nulled like a code prompt, so the
      response model rejects it and the endpoint answers with an error, never with prompts. */
  lemma SentinelTextPromptFails(goal: string, text: string, parse: string -> Parsed, obj: map<string, Json>,
                                repr: map<string, Json> -> string, validationText: string)
    requires PyStrip(goal) != []
    requires parse(StripFence(text)) == Decoded(obj)
    requires "text_prompt" in obj && obj["text_prompt"] == JString(Sentinel)
    ensures Respond(goal, AttemptSpec(Parts(text), parse, repr, validationText)).Failure?
  {
    ParsedReply(text, parse, obj, repr, validationText);
    SentinelTextPromptRejected(obj, repr, validationText);
  }

  /** A reply that parses goes on to validation. */
  lemma ParsedReply(text: string, parse: string -> Parsed, obj: map<string, Json>,
                    repr: map<string, Json> -> string, validationText: string)
    requires parse(StripFence(text)) == Decoded(obj)
    ensures AttemptSpec(Parts(text), parse, repr, validationText) == Validated(obj, repr, validationText)
  {
  }

  lemma SentinelTextPromptRejected(obj: map<string, Json>, repr: map<string, Json> -> string, validationText: string)
    requires "text_prompt" in obj && obj["text_prompt"] == JString(Sentinel)
    ensures Validated(obj, repr, validationText).Err?
  {
    var d := NormalizedOn(obj, ExpectedKeys);
    assert d["text_prompt"] == JNull;
    CodeKeys();
    assert ExpectedKeys[0] == "text_prompt";
    assert !FieldAccepted(d, "text_prompt");
  }

  /** A reply without a fence that quotes "API key not valid" and fails to parse: the
      parse error echoes the raw reply, so it is reported as an invalid API key. */
  lemma EchoedPhraseReadsAsBadKey(goal: string, text: string, parse: string -> Parsed,
                                  repr: map<string, Json> -> string, validationText: string)
    requires PyStrip(goal) != []
    requires !("```" <= PyStrip(text)) && Contains(text, KeyPhrase)
    requires parse(text) == DecodeError
    ensures Respond(goal, AttemptSpec(Parts(text), parse, repr, validationText))
            == Failure(401, InvalidKeyDetail)
  {
    UnparsedReply(text, parse, repr, validationText);
    ParseErrorEchoes(text, KeyPhrase);
  }

  /** A reply without a fence that does not parse gives the parse error quoting it. */
  lemma UnparsedReply(text: string, parse: string -> Parsed, repr: map<string, Json> -> string,
                      validationText: string)
    requires !("```" <= PyStrip(text)) && parse(text) == DecodeError
    ensures AttemptSpec(Parts(text), parse, repr, validationText) == Err(HttpError(500, ParseErrorDetail(text)))
  {
  }

  /** The text of a parse error contains whatever the unparsed reply contains. */
  lemma ParseErrorEchoes(text: string, sub: string)
    ensures Contains(text, sub) ==> Contains(ExceptionText(HttpError(500, ParseErrorDetail(text))), sub)
  {
    var head := Decimal(500) + ": " + "Error parsing Gemini response as JSON. Raw response: ";
    assert ExceptionText(HttpError(500, ParseErrorDetail(text))) == head + text;
    if Contains(text, sub) {
      ContainsAppend(head, text, sub);
    }
  }

  /** The except clause as evidently intended: only an error raised by the model client
      itself can signal an invalid API key; the endpoint's own HTTP errors and pydantic's
      validation errors, whatever reply text they quote, stay 500. */
  function ClassifyCorrected(e: Exception): (resp: Response)
    ensures resp.Failure? && (resp.status == 401 || resp.status == 500)
    ensures resp.status == 401 <==> e.ClientFailed? && Contains(e.message, KeyPhrase)
    ensures resp.status == 401 ==> resp.detail == InvalidKeyDetail
    ensures !e.ClientFailed? ==> resp == Failure(500, UnexpectedPrefix + ExceptionText(e))
  {
    if e.ClientFailed? && Contains(e.message, KeyPhrase) then Failure(401, InvalidKeyDetail)
    else Failure(500, UnexpectedPrefix + ExceptionText(e))
  }

  /** The corrected clause differs from the written one only on errors that are not the
      client's and whose text mentions the phrase. */
  lemma CorrectedDiffersOnlyOnEchoes(e: Exception)
    ensures ClassifyCorrected(e) != Classify(e) <==> !e.ClientFailed? && Contains(ExceptionText(e), KeyPhrase)
  {
  }

  /** Under the corrected clause a reply that quotes the phrase and fails to parse is
      reported as the parse error it is. */
  lemma EchoedReplyStaysParseError(text: string)
    ensures var e := HttpError(500, ParseErrorDetail(text));
      ClassifyCorrected(e) == Failure(500, UnexpectedPrefix + ExceptionText(e))
  {
  }
}

=== FILE: canvas.dfy ===
/** The animated page background (frontend/script.js, the dynamic background script):
    the sky scene with its clouds, the night scene with its blinking stars and its
    comets, and the switch between the two. Positions, motion, colours and the sine
    curve of a blink are not modelled: a star is dim or blinking, a comet is its spawn
    time and the number of times it has moved, and whether a moved comet has left the
    screen is a predicate supplied by the caller. */
module Canvas {

  /** MAX_CLOUDS_BG, MAX_STARS_BG, COMET_INTERVAL_BG, the comet cap, BLINK_DURATION and
      INTER_BLINK_DELAY; times are in milliseconds. */
  const MaxClouds: nat := 15
  const MaxStars: nat := 150
  const CometInterval: real := 2500.0
  const MaxComets: nat := 4
  const BlinkDuration: real := 1200.0
  const InterBlinkDelay: real := 150.0

  /** currentCanvasThemeInternal: 'light' or 'dark'. */
  datatype Theme = Light | Dark

  /** setCanvasTheme's mapping from a page theme to a scene: only 'theme-deep' is dark. */
  function ThemeFor(name: string): Theme {
    if name == "theme-deep" then Dark else Light
  }

  // ---------------------------------------------------------------------------
  // Star blinking

  /** A star's opacity: its dim level, or on the curve of a blink. */
  datatype Level = Dim | Blinking

  /** The stars, blinkingStarIndex (-1 for none) and blinkStartTime, which is when the
      current blink or the current pause began. */
  datatype Sky = Sky(stars: seq<Level>, index: int, start: real)

  /** At most one star is bright: the index is -1 or names a star, and every other star
      is dim. */
  predicate SkyInv(s: Sky) {
    && -1 <= s.index < |s.stars|
    && forall i :: 0 <= i < |s.stars| && i != s.index ==> s.stars[i] == Dim
  }

  /** Every star set to its dim level. */
  function DimAll(stars: seq<Level>): (r: seq<Level>)
    ensures |r| == |stars|
    ensures forall i :: 0 <= i < |r| ==> r[i] == Dim
  {
    seq(|stars|, i => Dim)
  }

  /** Math.floor(canvasRandom(0, n)) for a value `random` drawn by Math.random(). */
  function PickIndex(random: real, n: nat): (i: nat)
    requires 0.0 <= random < 1.0 && n > 0
    ensures i < n
  {
    assert 0.0 <= random * n as real < n as real;
    (random * n as real).Floor
  }

  /** updateStarBlinkingLogic at time `t`. A blink in progress goes on while less than
      BLINK_DURATION has elapsed and then ends with its star dimmed; with no blink, once
      more than INTER_BLINK_DELAY has passed, every star is dimmed and a randomly drawn
      star starts a blink. */
  function BlinkStep(s: Sky, t: real, random: real): Sky
    requires 0.0 <= random < 1.0
  {
    if s.stars == [] then s
    else if s.index != -1 && 0 <= s.index < |s.stars| then
      if (t - s.start) / BlinkDuration < 1.0 then s.(stars := s.stars[s.index := Blinking])
      else Sky(s.stars[s.index := Dim], -1, t)
    else if t - s.start > InterBlinkDelay then
      Sky(DimAll(s.stars), PickIndex(random, |s.stars|), t)
    else s
  }

  /** The blinking step keeps "at most one bright star". */
  lemma BlinkStepKeepsInv(s: Sky, t: real, random: real)
    requires 0.0 <= random < 1.0 && SkyInv(s)
    ensures SkyInv(BlinkStep(s, t, random))
    ensures |BlinkStep(s, t, random).stars| == |s.stars|
  {
  }

  /** With the invariant, no two distinct stars are bright at once. */
  lemma OneBrightStar(s: Sky, i: int, j: int)
    requires SkyInv(s) && 0 <= i < |s.stars| && 0 <= j < |s.stars|
    requires s.stars[i] != Dim && s.stars[j] != Dim
    ensures i == j && i == s.index
  {
  }

  /** A blink ends once BLINK_DURATION has elapsed: every star is dim again and the
      pause starts at `t`. */
  lemma BlinkEnds(s: Sky, t: real, random: real)
    requires 0.0 <= random < 1.0 && SkyInv(s) && s.index != -1
    requires t - s.start >= BlinkDuration
    ensures var r := BlinkStep(s, t, random);
      r.index == -1 && r.start == t && forall i :: 0 <= i < |r.stars| ==> r.stars[i] == Dim
  {
  }

  /** Before BLINK_DURATION has elapsed the same star goes on blinking. */
  lemma BlinkGoesOn(s: Sky, t: real, random: real)
    requires 0.0 <= random < 1.0 && SkyInv(s) && s.index != -1
    requires t - s.start < BlinkDuration
    ensures var r := BlinkStep(s, t, random);
      r.index == s.index && r.start == s.start && r.stars[s.index] == Blinking
  {
  }

  /** A new blink starts only after more than INTER_BLINK_DELAY of pause, from a sky
      whose stars are all dim, and it starts at `t`. */
  lemma BlinkStartsAfterPause(s: Sky, t: real, random: real)
    requires 0.0 <= random < 1.0 && s.index == -1
    requires BlinkStep(s, t, random).index != -1
    ensures t - s.start > InterBlinkDelay
    ensures BlinkStep(s, t, random) == Sky(DimAll(s.stars), PickIndex(random, |s.stars|), t)
  {
  }

  /** During a short pause, or with no stars, the step changes nothing. */
  lemma PauseChangesNothing(s: Sky, t: real, random: real)
    requires 0.0 <= random < 1.0 && s.index == -1
    requires s.stars == [] || t - s.start <= InterBlinkDelay
    ensures BlinkStep(s, t, random) == s
  {
  }

  // ---------------------------------------------------------------------------
  // Comets

  /** A comet: the time it was spawned and how many frames have moved it. */
  datatype Comet = Comet(born: real, moves: nat)

  /** The comets, in the order they were spawned, and lastCometTimeBG. */
  datatype Pool = Pool(comets: seq<Comet>, last: real)

  function Moved(c: Comet): Comet {
    c.(moves := c.moves + 1)
  }

  /** A new comet joins the pool when more than COMET_INTERVAL_BG has passed since the
      last one and fewer than four are in flight. */
  function Spawned(p: Pool, t: real): Pool {
    if t - p.last > CometInterval && |p.comets| < MaxComets then Pool(p.comets + [Comet(t, 0)], t)
    else p
  }

  /** comets.filter: every comet moved once, and those now off screen dropped. */
  function Survivors(cs: seq<Comet>, offscreen: Comet -> bool): (r: seq<Comet>)
    ensures |r| <= |cs|
    ensures forall c :: c in r ==> !offscreen(c) && exists d :: d in cs && c == Moved(d)
    ensures forall d :: d in cs && !offscreen(Moved(d)) ==> Moved(d) in r
  {
    if cs == [] then []
    else
      var rest := Survivors(cs[1..], offscreen);
      assert forall d :: d in cs[1..] ==> d in cs;
      if offscreen(Moved(cs[0])) then rest else [Moved(cs[0])] + rest
  }

  /** The comet part of drawDarkModeCanvasBackground at time `t`. */
  function CometStep(p: Pool, t: real, offscreen: Comet -> bool): Pool {
    var q := Spawned(p, t);
    q.(comets := Survivors(q.comets, offscreen))
  }

  /** A frame adds at most one comet, and only when the interval has passed and the pool
      has room; the pool never holds more than four comets. */
  lemma CometStepBounds(p: Pool, t: real, offscreen: Comet -> bool)
    ensures |CometStep(p, t, offscreen).comets| <= |p.comets| + 1
    ensures |p.comets| <= MaxComets ==> |CometStep(p, t, offscreen).comets| <= MaxComets
    ensures |CometStep(p, t, offscreen).comets| > |p.comets| ==>
      t - p.last > CometInterval && |p.comets| < MaxComets
  {
  }

  /** A comet is spawned exactly when the interval has passed and the pool has room; it
      joins at the end, born at `t` and not yet moved, and the spawn time moves to `t`. */
  lemma SpawnRule(p: Pool, t: real, offscreen: Comet -> bool)
    ensures var spawns := t - p.last > CometInterval && |p.comets| < MaxComets;
      && (|Spawned(p, t).comets| == |p.comets| + 1 <==> spawns)
      && (spawns ==> Spawned(p, t).comets == p.comets + [Comet(t, 0)])
      && CometStep(p, t, offscreen).last == (if spawns then t else p.last)
  {
  }

  /** A comet stays in the pool exactly as long as it has not left the screen. */
  lemma CometsLeaveOnlyOffscreen(p: Pool, t: real, offscreen: Comet -> bool, c: Comet)
    requires c in Spawned(p, t).comets
    ensures Moved(c) in CometStep(p, t, offscreen).comets <==> !offscreen(Moved(c))
  {
  }

  // ---------------------------------------------------------------------------
  // The whole scene

  /** What the background script keeps between frames: the scene theme, how many clouds
      there are, the stars, the comets, whether the animation loop runs, and the canvas
      size. */
  datatype Scene = Scene(theme: Theme, clouds: nat, sky: Sky, pool: Pool, running: bool,
                         width: nat, height: nat)

  predicate SceneInv(s: Scene) {
    SkyInv(s.sky) && |s.pool.comets| <= MaxComets
  }

  /** The state when the script starts: internal theme 'light', no clouds, no stars, no
      comets, no animation frame requested, the canvas sized to the window. */
  function Initial(width: nat, height: nat): (s: Scene)
    ensures SceneInv(s)
  {
    Scene(Light, 0, Sky([], -1, 0.0), Pool([], 0.0), false, width, height)
  }

  /** initLightModeCanvas: fifteen fresh clouds; the stars and comets stay as they were. */
  function InitLight(s: Scene): Scene {
    s.(clouds := MaxClouds)
  }

  /** initDarkModeCanvas at time `now`: 150 dim stars, no blink, no comet, and both the
      pause and the comet interval starting at `now`. */
  function InitDark(s: Scene, now: real): Scene {
    s.(sky := Sky(seq(MaxStars, i => Dim), -1, now), pool := Pool([], now))
  }

  /** animationLoopDynamicBg at time `t`: the sky scene only moves its clouds; the night
      scene blinks its stars and updates its comets. The loop then keeps running. */
  function Frame(s: Scene, t: real, random: real, offscreen: Comet -> bool): Scene
    requires 0.0 <= random < 1.0
  {
    if s.theme == Light then s.(running := true)
    else s.(sky := BlinkStep(s.sky, t, random), pool := CometStep(s.pool, t, offscreen), running := true)
  }

  /** setCanvasTheme(name) at time `now`: the scene is re-initialised only when its theme
      changes, and a first frame is drawn if the loop is not running yet and the canvas
      has an area. */
  function SetTheme(s: Scene, name: string, now: real, random: real, offscreen: Comet -> bool): Scene
    requires 0.0 <= random < 1.0
  {
    var theme := ThemeFor(name);
    var s1 :=
      if theme == s.theme then s
      else if theme == Light then InitLight(s.(theme := theme))
      else InitDark(s.(theme := theme), now);
    if !s1.running && s1.width > 0 && s1.height > 0 then Frame(s1, now, random, offscreen) else s1
  }

  /** The resize handler: the new window size, and the current scene initialised again. */
  function Resize(s: Scene, width: nat, height: nat, now: real): Scene {
    var s1 := s.(width := width, height := height);
    if s1.theme == Light then InitLight(s1) else InitDark(s1, now)
  }

  lemma InitDarkKeepsInv(s: Scene, now: real)
    requires SceneInv(s)
    ensures SceneInv(InitDark(s, now))
    ensures InitDark(s, now).sky.index == -1 && |InitDark(s, now).sky.stars| == MaxStars
  {
  }

  lemma FrameKeepsInv(s: Scene, t: real, random: real, offscreen: Comet -> bool)
    requires 0.0 <= random < 1.0 && SceneInv(s)
    ensures SceneInv(Frame(s, t, random, offscreen))
    ensures Frame(s, t, random, offscreen).running
  {
    BlinkStepKeepsInv(s.sky, t, random);
    CometStepBounds(s.pool, t, offscreen);
  }

  lemma SetThemeKeepsInv(s: Scene, name: string, now: real, random: real, offscreen: Comet -> bool)
    requires 0.0 <= random < 1.0 && SceneInv(s)
    ensures SceneInv(SetTheme(s, name, now, random, offscreen))
    ensures SetTheme(s, name, now, random, offscreen).theme == ThemeFor(name)
  {
    var theme := ThemeFor(name);
    var s1 :=
      if theme == s.theme then s
      else if theme == Light then InitLight(s.(theme := theme))
      else InitDark(s.(theme := theme), now);
    assert SceneInv(s1);
    if !s1.running && s1.width > 0 && s1.height > 0 {
      FrameKeepsInv(s1, now, random, offscreen);
    }
  }

  lemma ResizeKeepsInv(s: Scene, width: nat, height: nat, now: real)
    requires SceneInv(s)
    ensures SceneInv(Resize(s, width, height, now))
  {
  }

  /** Asking for the scene already shown changes nothing once the loop runs. */
  lemma SameThemeChangesNothing(s: Scene, name: string, now: real, random: real, offscreen: Comet -> bool)
    requires 0.0 <= random < 1.0 && s.running && ThemeFor(name) == s.theme
    ensures SetTheme(s, name, now, random, offscreen) == s
  {
  }

  /** Switching to the night scene leaves 150 dim stars, no blink and no comet, even when
      the first frame is drawn at once: neither the pause nor the comet interval has
      passed. */
  lemma NightStartsQuiet(s: Scene, now: real, random: real, offscreen: Comet -> bool)
    requires 0.0 <= random < 1.0 && s.theme == Light
    ensures var r := SetTheme(s, "theme-deep", now, random, offscreen);
      r.theme == Dark && r.sky == Sky(seq(MaxStars, i => Dim), -1, now) && r.pool == Pool([], now)
  {
  }

  /** The sky scene on first load has no clouds: the script starts with the internal
      theme already 'light', so setCanvasTheme('theme-sky') sees no change and never
      calls initLightModeCanvas; clouds appear only after a resize. */
  lemma FirstSkyLoadHasNoClouds(width: nat, height: nat, now: real, random: real, offscreen: Comet -> bool)
    requires 0.0 <= random < 1.0
    ensures SetTheme(Initial(width, height), "theme-sky", now, random, offscreen).clouds == 0
    ensures Resize(SetTheme(Initial(width, height), "theme-sky", now, random, offscreen), width, height, now).clouds == MaxClouds
  {
  }

  /** setCanvasTheme as evidently intended: the scene is initialised when its theme
      changes and also when no frame has been requested yet, so the first call builds
      the scene it selects. */
  function SetThemeCorrected(s: Scene, name: string, now: real, random: real, offscreen: Comet -> bool): (r: Scene)
    requires 0.0 <= random < 1.0
    ensures !s.running && ThemeFor(name) == Light ==> r.clouds == MaxClouds
    ensures !s.running && ThemeFor(name) == Dark ==> |r.sky.stars| == MaxStars
    ensures s.running ==> r == SetTheme(s, name, now, random, offscreen)
  {
    var theme := ThemeFor(name);
    var s1 :=
      if theme == s.theme && s.running then s
      else if theme == Light then InitLight(s.(theme := theme))
      else InitDark(s.(theme := theme), now);
    if !s1.running && s1.width > 0 && s1.height > 0 then Frame(s1, now, random, offscreen) else s1
  }

  lemma SetThemeCorrectedKeepsInv(s: Scene, name: string, now: real, random: real, offscreen: Comet -> bool)
    requires 0.0 <= random < 1.0 && SceneInv(s)
    ensures SceneInv(SetThemeCorrected(s, name, now, random, offscreen))
    ensures SetThemeCorrected(s, name, now, random, offscreen).theme == ThemeFor(name)
  {
    var theme := ThemeFor(name);
    var s1 :=
      if theme == s.theme && s.running then s
      else if theme == Light then InitLight(s.(theme := theme))
      else InitDark(s.(theme := theme), now);
    assert SceneInv(s1);
    if !s1.running && s1.width > 0 && s1.height > 0 {
      FrameKeepsInv(s1, now, random, offscreen);
    }
  }

  /** With the correction the sky scene has its fifteen clouds from the first load. */
  lemma FirstSkyLoadHasCloudsCorrected(width: nat, height: nat, now: real, random: real, offscreen: Comet -> bool)
    requires 0.0 <= random < 1.0
    ensures SetThemeCorrected(Initial(width, height), "theme-sky", now, random, offscreen).clouds == MaxClouds
  {
  }

  // ---------------------------------------------------------------------------
  // The script's state

  /** The closure variables of the background script. */
  class Background {
    var theme: Theme
    var clouds: nat
    var stars: seq<Level>
    var blinking: int
    var blinkStart: real
    var comets: seq<Comet>
    var lastComet: real
    var running: bool
    var width: nat
    var height: nat

    function Snapshot(): Scene
      reads this
    {
      Scene(theme, clouds, Sky(stars, blinking, blinkStart), Pool(comets, lastComet), running, width, height)
    }

    predicate Valid()
      reads this
    {
      SceneInv(Snapshot())
    }

    /** The variables as declared, and the canvas sized to the window. */
    constructor (width: nat, height: nat)
      ensures Snapshot() == Initial(width, height) && Valid()
    {
      theme := Light;
      clouds := 0;
      stars := [];
      blinking := -1;
      blinkStart := 0.0;
      comets := [];
      lastComet := 0.0;
      running := false;
      this.width := width;
      this.height := height;
    }

    method InitLightModeCanvas()
      modifies this
      ensures Snapshot() == InitLight(old(Snapshot()))
    {
      clouds := 0;
      while clouds < MaxClouds
        invariant clouds <= MaxClouds
        invariant Snapshot() == old(Snapshot()).(clouds := clouds)
      {
        clouds := clouds + 1;
      }
    }

    /** The forEach that sets every star to its dim level. */
    method DimStars()
      modifies this
      ensures Snapshot() == old(Snapshot()).(sky := old(Snapshot()).sky.(stars := DimAll(old(stars))))
    {
      var i := 0;
      while i < |stars|
        invariant 0 <= i <= |stars| == |old(stars)|
        invariant forall j :: 0 <= j < i ==> stars[j] == Dim
        invariant forall j :: i <= j < |stars| ==> stars[j] == old(stars)[j]
        invariant Snapshot() == old(Snapshot()).(sky := old(Snapshot()).sky.(stars := stars))
      {
        stars := stars[i := Dim];
        i := i + 1;
      }
    }

    method InitDarkModeCanvas(now: real)
      modifies this
      ensures Snapshot() == InitDark(old(Snapshot()), now)
    {
      stars := [];
      while |stars| < MaxStars
        invariant |stars| <= MaxStars
        invariant forall j :: 0 <= j < |stars| ==> stars[j] == Dim
        invariant Snapshot() == old(Snapshot()).(sky := old(Snapshot()).sky.(stars := stars))
      {
        stars := stars + [Dim];
      }
      DimStars();
      comets := [];
      lastComet := now;
      blinking := -1;
      blinkStart := now;
    }

    method UpdateStarBlinkingLogic(t: real, random: real)
      requires 0.0 <= random < 1.0
      modifies this
      ensures Snapshot() == old(Snapshot()).(sky := BlinkStep(old(Snapshot()).sky, t, random))
    {
      if |stars| == 0 {
        return;
      }
      if blinking != -1 && 0 <= blinking < |stars| {
        var elapsed := t - blinkStart;
        var progress := elapsed / BlinkDuration;
        if progress < 1.0 {
          stars := stars[blinking := Blinking];
        } else {
          stars := stars[blinking := Dim];
          blinking := -1;
          blinkStart := t;
        }
      } else if t - blinkStart > InterBlinkDelay {
        DimStars();
        blinking := PickIndex(random, |stars|);
        blinkStart := t;
      }
    }

    /** The comet part of a night frame. */
    method UpdateComets(t: real, offscreen: Comet -> bool)
      modifies this
      ensures Snapshot() == old(Snapshot()).(pool := CometStep(old(Snapshot()).pool, t, offscreen))
    {
      if t - lastComet > CometInterval && |comets| < MaxComets {
        comets := comets + [Comet(t, 0)];
        lastComet := t;
      }
      comets := Survivors(comets, offscreen);
    }

    /** animationLoopDynamicBg(t). */
    method AnimationFrame(t: real, random: real, offscreen: Comet -> bool)
      requires 0.0 <= random < 1.0 && Valid()
      modifies this
      ensures Snapshot() == Frame(old(Snapshot()), t, random, offscreen)
      ensures Valid()
    {
      FrameKeepsInv(Snapshot(), t, random, offscreen);
      if theme == Dark {
        UpdateStarBlinkingLogic(t, random);
        UpdateComets(t, offscreen);
      }
      running := true;
    }

    /** setCanvasTheme(name) at time `now`. */
    method SetCanvasTheme(name: string, now: real, random: real, offscreen: Comet -> bool)
      requires 0.0 <= random < 1.0 && Valid()
      modifies this
      ensures Snapshot() == SetTheme(old(Snapshot()), name, now, random, offscreen)
      ensures Valid()
    {
      SetThemeKeepsInv(Snapshot(), name, now, random, offscreen);
      var newTheme := ThemeFor(name);
      var changed := theme != newTheme;
      theme := newTheme;
      if changed {
        if theme == Light {
          InitLightModeCanvas();
        } else {
          InitDarkModeCanvas(now);
        }
      }
      if !running && width > 0 && height > 0 {
        AnimationFrame(now, random, offscreen);
      }
    }

    /** The window's resize handler. */
    method OnResize(width: nat, height: nat, now: real)
      requires Valid()
      modifies this
      ensures Snapshot() == Resize(old(Snapshot()), width, height, now)
      ensures Valid()
    {
      ResizeKeepsInv(Snapshot(), width, height, now);
      this.width := width;
      this.height := height;
      if theme == Light {
        InitLightModeCanvas();
      } else {
        InitDarkModeCanvas(now);
      }
    }
  }
}

=== FILE: results.dfy ===
/** The result and error panels of the page (frontend/script.js, displayError,
    displayResults and updateCodePromptField): which of the nine prompt cards are
    visible after a reply, and what text each of them holds. */
module Results {
  import opened Text
  import Backend

  const Sentinel := Backend.Sentinel
  const Placeholder := "N/A"

  datatype Variant = Main | First | Second

  /** The three generation focuses; the radio buttons carry "text", "image" and "code". */
  datatype Kind = ForText | ForImage | ForCode

  /** One of the nine prompt slots: a variant and a kind. */
  datatype Slot = Slot(variant: Variant, kind: Kind)

  function KindName(k: Kind): string {
    match k
    case ForText => "text"
    case ForImage => "image"
    case ForCode => "code"
  }

  /** The key of the reply object that feeds a slot. */
  function Key(s: Slot): string {
    var prefix := match s.variant
      case Main => ""
      case First => "variation1_"
      case Second => "variation2_";
    prefix + KindName(s.kind) + "_prompt"
  }

  /** A prompt card: whether it is displayed, and the text of its prompt element. */
  datatype Card = Card(shown: bool, text: string)

  /** The part of the page these handlers touch: the cards the page has, and the two
      panels. The prompt elements of the text and image cards are written without a
      null check, so the source throws on a page that lacks one; such pages are not
      modelled. */
  datatype View = View(cards: map<Slot, Card>, resultsShown: bool, errorShown: bool, errorText: string)

  /** The parsed reply: the value under each key, None for null or absent. */
  type Data = map<string, Option<string>>

  function Field(data: Data, s: Slot): Option<string> {
    if Key(s) in data then data[Key(s)] else None
  }

  /** `!generationType`: nothing selected, or an empty value. */
  predicate NoFocus(gen: Option<string>) {
    !Truthy(gen)
  }

  /** Whether the cards of a kind take part in the display for the selected focus. */
  predicate InFocus(gen: Option<string>, k: Kind) {
    gen == Some(KindName(k)) || NoFocus(gen)
  }

  /** A code value worth showing: truthy, not the sentinel in any letter case, not blank. */
  predicate Meaningful(v: Option<string>) {
    && Truthy(v)
    && LowerAscii(v.value) != LowerAscii(Sentinel)
    && JsTrim(v.value) != []
  }

  /** displayError(message). */
  function DisplayError(v: View, message: string): (r: View)
    ensures r.errorShown && !r.resultsShown && r.errorText == message
    ensures r.cards == v.cards
  {
    v.(errorText := message, errorShown := true, resultsShown := false)
  }

  /** updateCodePromptField on a card that displayResults has just hidden. */
  function UpdateCodeField(card: Card, value: Option<string>, gen: Option<string>): (r: Card)
    ensures r.shown <==> gen == Some("code") || (NoFocus(gen) && Meaningful(value))
    ensures r.shown ==> r.text == if Meaningful(value) then value.value else Sentinel
    ensures Meaningful(value) ==> r.text == value.value
    ensures !Meaningful(value) && gen != Some("code") ==> r.text == card.text
  {
    if Meaningful(value) then
      Card(gen == Some("code") || NoFocus(gen), value.value)
    else if gen == Some("code") then
      Card(true, Sentinel)
    else
      Card(false, card.text)
  }

  /** The new state of one card after displayResults. */
  function CardAfter(card: Card, s: Slot, data: Data, gen: Option<string>): Card {
    var value := Field(data, s);
    if s.kind == ForCode then UpdateCodeField(card.(shown := false), value, gen)
    else Card(InFocus(gen, s.kind) && Truthy(value), if Truthy(value) then value.value else Placeholder)
  }

  /** displayResults(data, generationType): every card hidden first, then the cards in
      focus with content shown, every text filled in, and the results panel displayed. */
  function DisplayResults(v: View, data: Data, gen: Option<string>): (r: View)
    ensures r.cards.Keys == v.cards.Keys
    ensures r.resultsShown && r.errorShown == v.errorShown && r.errorText == v.errorText
  {
    v.(cards := map s | s in v.cards :: CardAfter(v.cards[s], s, data, gen), resultsShown := true)
  }

  /** The visibility table: a text or image card is shown exactly when its kind is in
      focus and its field is truthy; a code card exactly when the focus is code, or
      no focus is selected and its value is meaningful. */
  lemma VisibilityTable(v: View, data: Data, gen: Option<string>, s: Slot)
    requires s in v.cards
    ensures s.kind != ForCode ==>
      (DisplayResults(v, data, gen).cards[s].shown <==> InFocus(gen, s.kind) && Truthy(Field(data, s)))
    ensures s.kind == ForCode ==>
      (DisplayResults(v, data, gen).cards[s].shown <==> gen == Some("code") || (NoFocus(gen) && Meaningful(Field(data, s))))
  {
  }

  /** A visible card always shows this reply's content: its field for a text or image
      card (never "N/A" unless the field says so), the meaningful value or the sentinel
      for a code card; nothing left over from an earlier reply. */
  lemma ShownCardsAreCurrent(v: View, data: Data, gen: Option<string>, s: Slot)
    requires s in v.cards && DisplayResults(v, data, gen).cards[s].shown
    ensures var value := Field(data, s); var text := DisplayResults(v, data, gen).cards[s].text;
      if s.kind == ForCode then text == (if Meaningful(value) then value.value else Sentinel)
      else Truthy(value) && text == value.value
  {
  }

  /** Every text and image card, shown or hidden, holds its field when that is truthy
      and "N/A" otherwise. */
  lemma TextSlotsFilled(v: View, data: Data, gen: Option<string>, s: Slot)
    requires s in v.cards && s.kind != ForCode
    ensures Truthy(Field(data, s)) ==> DisplayResults(v, data, gen).cards[s].text == Field(data, s).value
    ensures !Truthy(Field(data, s)) ==> DisplayResults(v, data, gen).cards[s].text == Placeholder
  {
  }

  /** Which cards are visible, and what a visible card shows, depends only on the reply
      and the focus, not on what the page showed before. */
  lemma DisplayForgetsPrevious(v1: View, v2: View, data: Data, gen: Option<string>, s: Slot)
    requires s in v1.cards && s in v2.cards
    ensures DisplayResults(v1, data, gen).cards[s].shown == DisplayResults(v2, data, gen).cards[s].shown
    ensures DisplayResults(v1, data, gen).cards[s].shown ==>
      DisplayResults(v1, data, gen).cards[s].text == DisplayResults(v2, data, gen).cards[s].text
  {
    VisibilityTable(v1, data, gen, s);
    VisibilityTable(v2, data, gen, s);
  }

  /** With a single focus selected, no card of another kind is visible. */
  lemma FocusExcludesOtherKinds(v: View, data: Data, k: Kind, s: Slot)
    requires s in v.cards && s.kind != k
    ensures !DisplayResults(v, data, Some(KindName(k))).cards[s].shown
  {
  }
}

=== FILE: submit.dfy ===
/** The goal form of the page (frontend/script.js): the character counter under the
    goal field, the four checks the Generate button makes before it sends a request,
    and what the page shows once the request has been answered. */
module Submit {
  import opened Text
  import opened Results
  import Backend

  /** MAX_CHARS: the longest goal, in JavaScript string length, the form accepts. */
  const MaxChars := 500

  /** The counter under the goal field: its text and whether it is styled as an error. */
  datatype Counter = Counter(text: string, error: bool)

  /** The counter the input handler draws for the field's value: "<length> / 500", the
      length being that of the untrimmed value in UTF-16 code units; error styling only
      beyond 500. */
  function CounterFor(value: string): (c: Counter)
    ensures c.error <==> Utf16Length(value) > MaxChars
    ensures c.text == Decimal(Utf16Length(value)) + " / 500"
  {
    var n := Utf16Length(value);
    Counter(Decimal(n) + " / " + Decimal(MaxChars), n > MaxChars)
  }

  /** The checks the Generate button makes, in the order it makes them. */
  datatype Check = GoalBlank | GoalTooLong | FocusMissing | ModelMissing

  function Rank(c: Check): nat {
    match c
    case GoalBlank => 0
    case GoalTooLong => 1
    case FocusMissing => 2
    case ModelMissing => 3
  }

  /** What the click handler reads from the page: the trimmed goal, the untrimmed
      length, and the selected radio values (None when no button of a group is checked). */
  datatype Form = Form(goal: string, length: nat, gen: Option<string>, model: Option<string>)

  /** The goal sent is the trimmed field; it counts as blank when every character of the
      field is whitespace, and as too long by the untrimmed field's length; the radios
      are read as they are. */
  function ReadForm(value: string, gen: Option<string>, model: Option<string>): (f: Form)
    ensures f.goal == JsTrim(value)
    ensures Fails(GoalBlank, f) <==> forall i :: 0 <= i < |value| ==> IsJsSpace(value[i])
    ensures Fails(GoalTooLong, f) <==> Utf16Length(value) > MaxChars
    ensures f.gen == gen && f.model == model
  {
    TrimEmpty(value, IsJsSpace);
    Form(JsTrim(value), Utf16Length(value), gen, model)
  }

  /** Whether a check fails for the form. */
  predicate Fails(c: Check, f: Form) {
    match c
    case GoalBlank => f.goal == []
    case GoalTooLong => f.length > MaxChars
    case FocusMissing => !Truthy(f.gen)
    case ModelMissing => !Truthy(f.model)
  }

  function Message(c: Check): string {
    match c
    case GoalBlank => "Please define your objective first."
    case GoalTooLong => "Objective is too long. Max 500 characters, please."
    case FocusMissing => "Select a generation focus (Text, Image, or Code)."
    case ModelMissing => "Select a target model."
  }

  /** The two goal checks move the keyboard focus back to the goal field. */
  predicate Refocus(c: Check) {
    c == GoalBlank || c == GoalTooLong
  }

  /** What the click handler decides before any request: an error, or the goal to send. */
  datatype Outcome = Rejected(message: string, refocus: bool) | Send(goal: string)

  /** The checks made one after the other; the request body carries the trimmed goal. */
  function Validate(f: Form): (o: Outcome)
    ensures o.Send? ==> o.goal == f.goal
  {
    if f.goal == [] then Rejected(Message(GoalBlank), true)
    else if f.length > MaxChars then Rejected(Message(GoalTooLong), true)
    else if !Truthy(f.gen) then Rejected(Message(FocusMissing), false)
    else if !Truthy(f.model) then Rejected(Message(ModelMissing), false)
    else Send(f.goal)
  }

  /** The first failing check, if any, in the handler's order. */
  function FirstFailing(f: Form): (c: Option<Check>)
    ensures c.Some? ==> Fails(c.value, f)
    ensures c.Some? ==> forall d :: Rank(d) < Rank(c.value) ==> !Fails(d, f)
    ensures c.None? ==> forall d :: !Fails(d, f)
  {
    if Fails(GoalBlank, f) then Some(GoalBlank)
    else if Fails(GoalTooLong, f) then Some(GoalTooLong)
    else if Fails(FocusMissing, f) then Some(FocusMissing)
    else if Fails(ModelMissing, f) then Some(ModelMissing)
    else None
  }

  /** The request is sent exactly when every check passes; otherwise the message and the
      refocusing are those of the first failing check. */
  lemma ValidateFollowsChecks(f: Form)
    ensures Validate(f).Send? <==> forall c :: !Fails(c, f)
    ensures match FirstFailing(f)
      case Some(c) => Validate(f) == Rejected(Message(c), Refocus(c))
      case None => Validate(f) == Send(f.goal)
  {
    var first := FirstFailing(f);
    if first.Some? {
      assert Fails(first.value, f);
    }
  }

  /** Each check has a message of its own. */
  lemma MessagesDiffer(c: Check, d: Check)
    requires c != d
    ensures Message(c) != Message(d)
  {
    MessageLength(c);
    MessageLength(d);
  }

  lemma MessageLength(c: Check)
    ensures |Message(c)| == [35, 50, 49, 22][Rank(c)]
  {
  }

  /** The form is rejected with a check's message exactly when that check fails and
      every check made before it passes. */
  lemma FirstFailingCheckWins(f: Form, c: Check)
    ensures Validate(f) == Rejected(Message(c), Refocus(c)) <==>
      Fails(c, f) && forall d :: Rank(d) < Rank(c) ==> !Fails(d, f)
  {
    ValidateFollowsChecks(f);
    var first := FirstFailing(f);
    if first.Some? && first.value != c {
      MessagesDiffer(first.value, c);
      if Rank(first.value) < Rank(c) {
        assert Fails(first.value, f);
      }
    }
  }

  /** A sent goal is not blank, is already trimmed, and is no longer than the limit. */
  lemma SentGoalIsWithinLimits(value: string, gen: Option<string>, model: Option<string>)
    requires Validate(ReadForm(value, gen, model)).Send?
    ensures var goal := Validate(ReadForm(value, gen, model)).goal;
      goal != [] && JsTrim(goal) == goal && Utf16Length(goal) <= MaxChars
  {
    Utf16LengthTrim(value, IsJsSpace);
    TrimIdempotent(value, IsJsSpace);
  }

  /** After an input event the counter shows the error style exactly when the length
      check would reject. */
  lemma CounterAgreesWithCheck(value: string, gen: Option<string>, model: Option<string>)
    ensures CounterFor(value).error <==> Fails(GoalTooLong, ReadForm(value, gen, model))
  {
  }

  /** The counter drawn once when the page loads: the same text, but the style is left
      as the stylesheet sets it, never the error style. */
  function LoadCounter(value: string): (c: Counter)
    ensures c.text == CounterFor(value).text
    ensures !c.error
  {
    Counter(Decimal(Utf16Length(value)) + " / " + Decimal(MaxChars), false)
  }

  /** A value over the limit already in the field at load (one the browser restored) is
      shown without the error style until the first input event, though the check rejects it. */
  lemma PrefilledLongValueLooksFine(value: string, gen: Option<string>, model: Option<string>)
    requires Utf16Length(value) > MaxChars
    ensures !LoadCounter(value).error && CounterFor(value).error
    ensures Fails(GoalTooLong, ReadForm(value, gen, model))
  {
  }

  /** A goal made of an information separator passes the page's check, since JavaScript's
      trim() keeps U+001C, but Python's strip() removes it and the server answers 400. */
  lemma SeparatorGoalReachesServer(attempt: Result<Backend.Prompts, Backend.Exception>)
    ensures Validate(ReadForm("\U{1C}", Some("text"), Some("gemini"))) == Send("\U{1C}")
    ensures Backend.Respond("\U{1C}", attempt) == Backend.Failure(400, Backend.EmptyGoalDetail)
  {
    SeparatorPassesPage();
    SeparatorRejectedByServer(attempt);
  }

  lemma SeparatorPassesPage()
    ensures Validate(ReadForm("\U{1C}", Some("text"), Some("gemini"))) == Send("\U{1C}")
  {
    SeparatorForm();
    SeparatorFormPasses();
  }

  lemma SeparatorFormPasses()
    ensures Validate(Form("\U{1C}", 1, Some("text"), Some("gemini"))) == Send("\U{1C}")
  {
  }

  lemma SeparatorForm()
    ensures ReadForm("\U{1C}", Some("text"), Some("gemini")) == Form("\U{1C}", 1, Some("text"), Some("gemini"))
  {
    SeparatorIsKeptByTrim();
  }

  lemma SeparatorRejectedByServer(attempt: Result<Backend.Prompts, Backend.Exception>)
    ensures Backend.Respond("\U{1C}", attempt) == Backend.Failure(400, Backend.EmptyGoalDetail)
  {
    SeparatorIsRemovedByStrip();
  }

  lemma SeparatorIsKeptByTrim()
    ensures JsTrim("\U{1C}") == "\U{1C}" && Utf16Length("\U{1C}") == 1
  {
    TrimClean("\U{1C}", IsJsSpace);
  }

  lemma SeparatorIsRemovedByStrip()
    ensures PyStrip("\U{1C}") == []
  {
    var s := "\U{1C}";
    assert IsPySpace(s[0]) && s[1..] == [];
    assert TrimStart(s, IsPySpace) == [];
  }

  // ---------------------------------------------------------------------------
  // Handling the reply

  /** The body of a non-2xx reply: not JSON, or an object with an optional detail. */
  datatype ErrorBody = Unparsable | Detail(detail: Option<string>)

  /** How the request ended. */
  datatype Reply =
    | Received(data: Data)
    | Refused(status: nat, statusText: string, body: ErrorBody)
    | NetworkError(message: string)

  /** The message of the error thrown for a non-2xx reply: the server's detail when it
      has one, otherwise the status, with its text when the body was JSON. */
  function RefusalMessage(status: nat, statusText: string, body: ErrorBody): (m: string)
    ensures body.Detail? && Truthy(body.detail) ==> m == body.detail.value
    ensures body.Unparsable? ==> m == "Server Error: " + Decimal(status)
    ensures body.Detail? && !Truthy(body.detail) ==> m == "Server Error: " + Decimal(status) + " - " + statusText
  {
    match body
    case Unparsable => "Server Error: " + Decimal(status)
    case Detail(d) =>
      if Truthy(d) then d.value else "Server Error: " + Decimal(status) + " - " + statusText
  }

  /** The two fallbacks tell an unreadable body from a JSON body without a detail: only
      the second carries the status text, after " - ". */
  lemma FallbacksDiffer(status: nat, statusText: string, d: Option<string>)
    requires !Truthy(d)
    ensures RefusalMessage(status, statusText, Unparsable) != RefusalMessage(status, statusText, Detail(d))
  {
    var m := RefusalMessage(status, statusText, Unparsable);
    assert |RefusalMessage(status, statusText, Detail(d))| >= |m| + 3;
  }

  const FallbackMessage := "An unexpected error occurred. Please try again."

  /** The page after a click on Generate, given how the request (if sent) ended. */
  function Click(v: View, f: Form, reply: Reply): View {
    match Validate(f)
    case Rejected(message, _) => DisplayError(v, message)
    case Send(_) =>
      var w := v.(errorShown := false, resultsShown := false);
      match reply
      case Received(data) => DisplayResults(w, data, f.gen)
      case Refused(status, statusText, body) => DisplayError(w, RefusalMessage(status, statusText, body))
      case NetworkError(message) => DisplayError(w, if message != "" then message else FallbackMessage)
  }

  /** After a click exactly one of the error panel and the results panel is displayed. */
  lemma ClickShowsOnePanel(v: View, f: Form, reply: Reply)
    ensures Click(v, f, reply).errorShown != Click(v, f, reply).resultsShown
  {
  }

  /** A rejected form sends nothing: the reply plays no part, the cards stay as they
      were, and the error panel carries the message of a failing check. */
  lemma RejectedFormSendsNothing(v: View, f: Form, reply1: Reply, reply2: Reply)
    requires Validate(f).Rejected?
    ensures Click(v, f, reply1) == Click(v, f, reply2)
    ensures Click(v, f, reply1).cards == v.cards
    ensures exists c :: Fails(c, f) && Click(v, f, reply1).errorText == Message(c)
  {
    ValidateFollowsChecks(f);
    var first := FirstFailing(f);
    assert Fails(first.value, f);
  }

  /** An error the server reports with a detail is shown with that detail. */
  lemma ServerDetailIsShown(v: View, f: Form, status: nat, statusText: string, detail: string)
    requires Validate(f).Send? && detail != ""
    ensures var r := Click(v, f, Refused(status, statusText, Detail(Some(detail))));
      r.errorShown && !r.resultsShown && r.errorText == detail && r.cards == v.cards
  {
  }
}

=== FILE: text.dfy ===
/** Text rules shared by the backend and frontend models: which characters
    Python's str.strip() and JavaScript's String.prototype.trim() remove,
    JavaScript's UTF-16 string length, substring search, ASCII lower-casing
    and decimal rendering of naturals. */
module Text {

  datatype Option<T> = None | Some(value: T)

  datatype Result<T, E> = Ok(value: T) | Err(error: E)

  /** JavaScript truthiness of a string-or-null value: present and not empty. */
  predicate Truthy(v: Option<string>) {
    v.Some? && v.value != ""
  }

  /** Characters for which Python's str.isspace() holds; str.strip() removes these. */
  predicate IsPySpace(c: char) {
    var n := c as int;
    n == 0x20 || 0x09 <= n <= 0x0D || 0x1C <= n <= 0x1F || n == 0x85 || n == 0xA0
    || n == 0x1680 || 0x2000 <= n <= 0x200A || n == 0x2028 || n == 0x2029
    || n == 0x202F || n == 0x205F || n == 0x3000
  }

  /** ECMAScript WhiteSpace and LineTerminator characters; trim() removes these. */
  predicate IsJsSpace(c: char) {
    var n := c as int;
    n == 0x20 || 0x09 <= n <= 0x0D || n == 0xA0 || n == 0xFEFF
    || n == 0x1680 || 0x2000 <= n <= 0x200A || n == 0x2028 || n == 0x2029
    || n == 0x202F || n == 0x205F || n == 0x3000
  }

  /** `s` without its leading run of characters satisfying `isSpace`. */
  function TrimStart(s: string, isSpace: char -> bool): (r: string)
    ensures |r| <= |s| && r == s[|s| - |r|..]
    ensures r == [] || !isSpace(r[0])
  {
    if s == [] || !isSpace(s[0]) then s else TrimStart(s[1..], isSpace)
  }

  /** `s` without its trailing run of characters satisfying `isSpace`. */
  function TrimEnd(s: string, isSpace: char -> bool): (r: string)
    ensures |r| <= |s| && r == s[..|r|]
    ensures r == [] || !isSpace(r[|r| - 1])
  {
    if s == [] || !isSpace(s[|s| - 1]) then s else TrimEnd(s[..|s| - 1], isSpace)
  }

  /** Both ends trimmed: a slice of `s` that, unless empty, starts and ends with a non-space. */
  function Trim(s: string, isSpace: char -> bool): (r: string)
    ensures |r| <= |s|
    ensures r == [] || (!isSpace(r[0]) && !isSpace(r[|r| - 1]))
  {
    var t := TrimStart(s, isSpace);
    var r := TrimEnd(t, isSpace);
    if t == [] then r
    else
      assert r == t[..|r|];
      r
  }

  /** Everything TrimStart drops is a space. */
  lemma {:induction false} TrimStartDropsSpaces(s: string, isSpace: char -> bool)
    ensures forall i :: 0 <= i < |s| - |TrimStart(s, isSpace)| ==> isSpace(s[i])
    decreases |s|
  {
    if s != [] && isSpace(s[0]) {
      TrimStartDropsSpaces(s[1..], isSpace);
      assert forall i :: 1 <= i < |s| ==> s[i] == s[1..][i - 1];
    }
  }

  /** Everything TrimEnd drops is a space. */
  lemma {:induction false} TrimEndDropsSpaces(s: string, isSpace: char -> bool)
    ensures forall i :: |TrimEnd(s, isSpace)| <= i < |s| ==> isSpace(s[i])
    decreases |s|
  {
    if s != [] && isSpace(s[|s| - 1]) {
      TrimEndDropsSpaces(s[..|s| - 1], isSpace);
    }
  }

  /** Trimming leaves nothing exactly when every character is a space. */
  lemma TrimEmpty(s: string, isSpace: char -> bool)
    ensures Trim(s, isSpace) == [] <==> forall i :: 0 <= i < |s| ==> isSpace(s[i])
  {
    var t := TrimStart(s, isSpace);
    TrimStartDropsSpaces(s, isSpace);
    if t != [] {
      TrimEndDropsSpaces(t, isSpace);
      assert s[|s| - |t|] == t[0];
    }
  }

  /** Python's str.strip() with no argument. */
  function PyStrip(s: string): string {
    Trim(s, IsPySpace)
  }

  /** JavaScript's String.prototype.trim(). */
  function JsTrim(s: string): string {
    Trim(s, IsJsSpace)
  }

  /** Neither starts nor ends with a space. */
  predicate Clean(s: string, isSpace: char -> bool) {
    s == [] || (!isSpace(s[0]) && !isSpace(s[|s| - 1]))
  }

  /** A string that neither starts nor ends with a space is its own trim. */
  lemma TrimClean(s: string, isSpace: char -> bool)
    requires Clean(s, isSpace)
    ensures Trim(s, isSpace) == s
  {
  }

  /** Trimming twice trims no more than trimming once. */
  lemma TrimIdempotent(s: string, isSpace: char -> bool)
    ensures Trim(Trim(s, isSpace), isSpace) == Trim(s, isSpace)
  {
    TrimClean(Trim(s, isSpace), isSpace);
  }

  /** Leading spaces do not change the trimmed string. */
  lemma {:induction false} TrimLeadingSpace(c: char, s: string, isSpace: char -> bool)
    requires isSpace(c)
    ensures Trim([c] + s, isSpace) == Trim(s, isSpace)
  {
    assert ([c] + s)[1..] == s;
  }

  /** Trailing spaces do not change the trimmed string. */
  lemma {:induction false} TrimTrailingSpace(s: string, c: char, isSpace: char -> bool)
    requires isSpace(c)
    ensures Trim(s + [c], isSpace) == Trim(s, isSpace)
  {
    var t := TrimStart(s, isSpace);
    if t == [] {
      TrimStartDropsSpaces(s, isSpace);
      assert forall i :: 0 <= i < |s + [c]| ==> isSpace((s + [c])[i]);
      TrimEmpty(s + [c], isSpace);
    } else {
      TrimStartAppend(s, [c], isSpace);
      var u := t + [c];
      assert u[|u| - 1] == c && u[..|u| - 1] == t;
      assert TrimEnd(u, isSpace) == TrimEnd(t, isSpace);
    }
  }

  /** Trimming the front of `s + u` when `s` has a non-space somewhere trims `s` only. */
  lemma {:induction false} TrimStartAppend(s: string, u: string, isSpace: char -> bool)
    requires TrimStart(s, isSpace) != []
    ensures TrimStart(s + u, isSpace) == TrimStart(s, isSpace) + u
    decreases |s|
  {
    assert (s + u)[0] == s[0];
    if isSpace(s[0]) {
      assert (s + u)[1..] == s[1..] + u;
      TrimStartAppend(s[1..], u, isSpace);
    }
  }

  /** The number of UTF-16 code units of one character. */
  function Utf16Units(c: char): nat {
    if c as int >= 0x1_0000 then 2 else 1
  }

  /** Length in UTF-16 code units: JavaScript's String.prototype.length. */
  function Utf16Length(s: string): (n: nat)
    ensures |s| <= n <= 2 * |s|
  {
    if s == [] then 0 else Utf16Units(s[0]) + Utf16Length(s[1..])
  }

  /** For text inside the Basic Multilingual Plane, JavaScript's length is the character count. */
  lemma {:induction false} Utf16LengthBmp(s: string)
    requires forall i :: 0 <= i < |s| ==> (s[i] as int) < 0x1_0000
    ensures Utf16Length(s) == |s|
    decreases |s|
  {
    if s != [] {
      assert s[0] as int < 0x1_0000;
      Utf16LengthBmp(s[1..]);
    }
  }

  lemma {:induction false} Utf16LengthAppend(a: string, b: string)
    ensures Utf16Length(a + b) == Utf16Length(a) + Utf16Length(b)
    decreases |a|
  {
    if a == [] {
      assert a + b == b;
    } else {
      assert (a + b)[0] == a[0];
      assert (a + b)[1..] == a[1..] + b;
      Utf16LengthAppend(a[1..], b);
    }
  }

  /** A character above U+FFFF (a surrogate pair) adds two code units, any other one. */
  lemma Utf16LengthSnoc(s: string, c: char)
    ensures c as int >= 0x1_0000 ==> Utf16Length(s + [c]) == Utf16Length(s) + 2
    ensures c as int < 0x1_0000 ==> Utf16Length(s + [c]) == Utf16Length(s) + 1
  {
    Utf16LengthAppend(s, [c]);
    assert [c][1..] == [];
  }

  /** Splitting a string splits its UTF-16 length. */
  lemma Utf16LengthSplit(s: string, k: nat)
    requires k <= |s|
    ensures Utf16Length(s) == Utf16Length(s[..k]) + Utf16Length(s[k..])
  {
    assert s[..k] + s[k..] == s;
    Utf16LengthAppend(s[..k], s[k..]);
  }

  /** A slice is never longer, in UTF-16 code units, than the string it comes from. */
  lemma Utf16LengthSlice(s: string, i: nat, j: nat)
    requires i <= j <= |s|
    ensures Utf16Length(s[i..j]) <= Utf16Length(s)
  {
    Utf16LengthSplit(s, j);
    Utf16LengthSplit(s[..j], i);
    assert s[..j][i..] == s[i..j];
  }

  /** Trimming never makes a string longer in UTF-16 code units. */
  lemma Utf16LengthTrim(s: string, isSpace: char -> bool)
    ensures Utf16Length(Trim(s, isSpace)) <= Utf16Length(s)
  {
    var t := TrimStart(s, isSpace);
    var r := TrimEnd(t, isSpace);
    Utf16LengthSlice(s, |s| - |t|, |s|);
    assert s[|s| - |t|..|s|] == t;
    Utf16LengthSlice(t, 0, |r|);
    assert t[0..|r|] == r;
  }

  /** `sub` occurs in `s`: Python's `sub in s`, JavaScript's `s.includes(sub)`. */
  predicate Contains(s: string, sub: string) {
    exists i :: 0 <= i <= |s| - |sub| && sub <= s[i..]
  }

  lemma ContainsSuffix(a: string, b: string)
    ensures Contains(a + b, b)
  {
    assert b <= (a + b)[|a|..];
  }

  /** Text put in front of a string does not hide what the string contains. */
  lemma ContainsAppend(a: string, b: string, sub: string)
    requires Contains(b, sub)
    ensures Contains(a + b, sub)
  {
    var i :| 0 <= i <= |b| - |sub| && sub <= b[i..];
    assert (a + b)[|a| + i..] == b[i..];
  }

  /** A string lacking the first character of `sub` cannot contain `sub`. */
  lemma NotContainsWithoutHead(s: string, sub: string)
    requires sub != [] && sub[0] !in s
    ensures !Contains(s, sub)
  {
    forall i | 0 <= i <= |s| - |sub|
      ensures !(sub <= s[i..])
    {
      assert s[i] in s;
    }
  }

  /** ASCII letters A-Z lowered, every other character kept. */
  function LowerAsciiChar(c: char): char {
    if 'A' <= c <= 'Z' then (c as int + 32) as char else c
  }

  function LowerAscii(s: string): (r: string)
    ensures |r| == |s|
  {
    seq(|s|, i requires 0 <= i < |s| => LowerAsciiChar(s[i]))
  }

  function Digit(d: nat): (c: char)
    requires d < 10
    ensures '0' <= c <= '9'
  {
    ('0' as int + d) as char
  }

  /** The number a string of decimal digits denotes, most significant digit first. */
  function Value(s: string): nat
    requires forall i :: 0 <= i < |s| ==> '0' <= s[i] <= '9'
  {
    if s == [] then 0 else 10 * Value(s[..|s| - 1]) + (s[|s| - 1] as int - '0' as int)
  }

  /** Decimal rendering of a natural, as JavaScript's `${n}` and Python's str(n) give it:
      digits only, denoting `n`, with no leading zero. */
  function Decimal(n: nat): (r: string)
    ensures r != []
    ensures forall i :: 0 <= i < |r| ==> '0' <= r[i] <= '9'
    ensures Value(r) == n
    ensures (r[0] == '0') <==> n == 0
  {
    if n < 10 then [Digit(n)]
    else
      var r := Decimal(n / 10) + [Digit(n % 10)];
      assert r[..|r| - 1] == Decimal(n / 10);
      r
  }
}

=== FILE: theme.dfy ===
/** The sky/deep page theme (frontend/script.js, setInitialPromptSmithTheme and the
    toggle button's click handler): the body's class, the theme remembered in local
    storage, the toggle button's icon and aria-label, and the background scene that
    follows the theme. The stored value and the operating system's dark preference are inputs. */
module ThemeToggle {
  import opened Text
  import Canvas

  const Sky := "theme-sky"
  const Deep := "theme-deep"

  /** The characters that separate the tokens of a class attribute. */
  predicate IsAsciiSpace(c: char) {
    c == ' ' || c == '\t' || c == '\n' || c == '\U{0C}' || c == '\r'
  }

  /** classList.contains(token): `token` is one of the whitespace-separated tokens of
      the class attribute. */
  predicate HasClass(className: string, token: string) {
    exists i, j :: 0 <= i <= j <= |className| && className[i..j] == token
      && (i == 0 || IsAsciiSpace(className[i - 1]))
      && (j == |className| || IsAsciiSpace(className[j]))
  }

  lemma SkyHasSkyClass()
    ensures HasClass(Sky, Sky)
  {
    assert Sky[0..|Sky|] == Sky;
  }

  lemma DeepLacksSkyClass()
    ensures !HasClass(Deep, Sky)
  {
    forall i, j | 0 <= i <= j <= |Deep|
      ensures Deep[i..j] != Sky
    {
      if j - i == |Sky| {
        if i == 0 {
          assert Deep[i..j][6] != Sky[6];
        } else {
          assert i == 1 && Deep[i..j][0] == Deep[1] == 'h';
        }
      }
    }
  }

  /** The toggle button's icon: the sun offers the way back to the sky theme. */
  datatype Icon = Sun | Moon

  function IconFor(theme: string): Icon {
    if theme == Deep then Sun else Moon
  }

  function AriaLabelFor(theme: string): string {
    if theme == Deep then "Switch to Sky Theme" else "Switch to Deep Theme"
  }

  /** The theme on page load: the stored theme when there is a non-empty one, otherwise
      deep when the system prefers dark colours, otherwise sky. */
  function InitialTheme(stored: Option<string>, prefersDark: bool): (theme: string)
    ensures Truthy(stored) ==> theme == stored.value
    ensures !Truthy(stored) ==> (theme == Deep <==> prefersDark) && (theme == Sky <==> !prefersDark)
  {
    var saved := if Truthy(stored) then stored.value else Sky;
    if !Truthy(stored) && prefersDark then Deep else saved
  }

  /** The toggle's choice: deep when the body carries the sky class, sky otherwise. */
  function NextTheme(className: string): string {
    if HasClass(className, Sky) then Deep else Sky
  }

  /** Toggling twice from either theme comes back to it. */
  lemma ToggleTwice(className: string)
    requires className == Sky || className == Deep
    ensures NextTheme(NextTheme(className)) == className
  {
    SkyHasSkyClass();
    DeepLacksSkyClass();
  }

  /** Whatever the body's class was, one toggle leaves one of the two themes, and a
      different one from a body that was already one of them. */
  lemma ToggleAlternates(className: string)
    ensures NextTheme(className) == Sky || NextTheme(className) == Deep
    ensures className == Sky || className == Deep ==> NextTheme(className) != className
  {
    SkyHasSkyClass();
    DeepLacksSkyClass();
  }

  /** What the page shows of the theme, and what local storage holds. */
  datatype PageState = PageState(bodyClass: string, stored: Option<string>, icon: Icon, ariaLabel: string)

  /** The button always matches the body's theme. */
  predicate Consistent(p: PageState) {
    p.icon == IconFor(p.bodyClass) && p.ariaLabel == AriaLabelFor(p.bodyClass)
  }

  /** The page after setInitialPromptSmithTheme; storage is only read. */
  function Load(stored: Option<string>, prefersDark: bool): (p: PageState)
    ensures p.bodyClass == InitialTheme(stored, prefersDark)
    ensures Consistent(p) && p.stored == stored
  {
    var theme := InitialTheme(stored, prefersDark);
    PageState(theme, stored, IconFor(theme), AriaLabelFor(theme))
  }

  /** The page after a click on the toggle: the new theme is shown and persisted. */
  function Toggle(p: PageState): (r: PageState)
    ensures r.bodyClass == NextTheme(p.bodyClass)
    ensures Consistent(r) && r.stored == Some(r.bodyClass)
  {
    var theme := NextTheme(p.bodyClass);
    PageState(theme, Some(theme), IconFor(theme), AriaLabelFor(theme))
  }

  /** A toggled theme survives a reload, whatever the system preference. */
  lemma ToggledThemeSurvivesReload(p: PageState, prefersDark: bool)
    ensures Load(Toggle(p).stored, prefersDark).bodyClass == Toggle(p).bodyClass
  {
    ToggleAlternates(p.bodyClass);
  }

  /** The page's theme state, holding the background script when the page has a canvas. */
  class Page {
    var bodyClass: string
    var stored: Option<string>
    var icon: Icon
    var ariaLabel: string
    const background: Canvas.Background?

    function State(): PageState
      reads this
    {
      PageState(bodyClass, stored, icon, ariaLabel)
    }

    /** The button matches the theme, and the background shows the scene of the theme. */
    predicate Valid()
      reads this, background
    {
      && Consistent(State())
      && (background != null ==> background.Valid() && background.theme == Canvas.ThemeFor(bodyClass))
    }

    /** setInitialPromptSmithTheme at time `now`. */
    constructor (stored: Option<string>, prefersDark: bool, background: Canvas.Background?,
                 now: real, random: real, offscreen: Canvas.Comet -> bool)
      requires 0.0 <= random < 1.0
      requires background != null ==> background.Valid()
      modifies background
      ensures State() == Load(stored, prefersDark) && this.background == background
      ensures background != null ==>
        background.Snapshot() == Canvas.SetTheme(old(background.Snapshot()), bodyClass, now, random, offscreen)
      ensures Valid()
    {
      var saved := InitialTheme(stored, prefersDark);
      bodyClass := saved;
      this.stored := stored;
      icon := IconFor(saved);
      ariaLabel := AriaLabelFor(saved);
      this.background := background;
      new;
      if background != null {
        background.SetCanvasTheme(saved, now, random, offscreen);
      }
    }

    /** The toggle button's click handler at time `now`. */
    method ToggleTheme(now: real, random: real, offscreen: Canvas.Comet -> bool)
      requires 0.0 <= random < 1.0 && Valid()
      modifies this, background
      ensures State() == Toggle(old(State()))
      ensures background != null ==>
        background.Snapshot() == Canvas.SetTheme(old(background.Snapshot()), bodyClass, now, random, offscreen)
      ensures Valid()
    {
      var newTheme;
      if HasClass(bodyClass, Sky) {
        newTheme := Deep;
        icon := Sun;
      } else {
        newTheme := Sky;
        icon := Moon;
      }
      bodyClass := newTheme;
      stored := Some(newTheme);
      ariaLabel := AriaLabelFor(newTheme);
      if background != null {
        background.SetCanvasTheme(newTheme, now, random, offscreen);
      }
    }
  }
}
